=== FILE: README.md ===
# Committee submissions: a Dafny model

This project models the logic of a small web application that delegates of a model-UN conference use to
submit resolutions and amendments for their committee.

- **Committee page.** A delegate on the committee page fills in either a resolution (title, sponsor,
  optional co-sponsors, a document of at most 10 MiB) or an amendment (resolution number, content).
- **Make proxy (`POST /api/make-proxy`).** A resolution's file is read in the browser as a base64 `data:`
  URL and posted as JSON to this route. The route decodes the file and picks its media type from the file
  name. It then frames the file and five text fields by hand into a `multipart/form-data` body and forwards
  that body to an automation webhook.
- **Intake (`POST /api/submit`).** An amendment is posted as JSON to this route. The route runs an ordered
  chain of checks and then inserts one row into the `amendments` table.
- **Committee session.** The code is kept in the browser's `localStorage` under `userCommittee`:
  - the login component trims the typed code, verifies it against the `committees` registry, stores it
    and navigates on;
  - the guard sends visitors without a stored code to `/login`;
  - the brand panel offers a logout.
- **Navigation.** Two bars (top tabs and bottom navigation) mark their active link by one shared rule.

Every handler and component is a total function. Its inputs are a request record plus whatever the outside
world answered, and its output is a response record and, for the browser side, the ordered list of side
effects:

- the webhook, the datastore, the registry lookup and the `FileReader` are function parameters (oracles);
- `localStorage` is an explicit map that may be unusable (every access throws);
- the router is a list of `push`/`replace` effects.

| module | file | models |
|---|---|---|
| `Common` | common.dfy | `Option`, `Result`, the `byte` type, prefix/suffix, ASCII lower-casing, concatenation of chunk lists |
| `Js` | js.dfy | JSON field values, truthiness, `String(x)`, `\|\|`, `??`, and `JSON.stringify` omitting `undefined` members |
| `Utf8` | utf8.dfy | `Buffer.from(string)`: UTF-8 per RFC 3629 |
| `Base64` | base64.dfy | the browser's encoder (section 4 of RFC 4648, padded) and Node's lenient `Buffer.from(s, 'base64')` decoder, which reads each UTF-16 code unit by its low byte |
| `DataUrl` | dataurl.dfy | the `data:` URL of section 3 of RFC 2397 and `String.prototype.split` |
| `Multipart` | multipart.dfy | the route's push-order body and the `multipart/form-data` grammar (section 4 of RFC 7578, delimiters per section 5.1.1 of RFC 2046) |
| `MultipartReader` | multipartreader.dfy | a reader of `multipart/form-data` bodies defined apart from the writer: it splits at the delimiter of section 5.1.1 of RFC 2046 and separates each part's header lines from its content |
| `Http` | http.dfy | the JSON responses of the two routes |
| `MakeProxy` | makeproxy.dfy | `POST /api/make-proxy` |
| `SubmitRoute` | submitroute.dfy | `POST /api/submit` |
| `Browser` | browser.dfy | `localStorage` and navigation effects |
| `CommitteePage` | committeepage.dfy | the committee page's mount effect and `onSubmit` |
| `CommitteeLogin` | committeelogin.dfy | `String.prototype.trim`, `getSupabaseClient` and `handleSubmit` |
| `CommitteeGuard` | committeeguard.dfy | the guard's redirect effect |
| `BrandPanel` | brandpanel.dfy | `hasCommittee` at mount, the logout button and its action |
| `Navigation`, `TopTabs`, `BottomNav` | navigation.dfy, toptabs.dfy, bottomnav.dfy | the active-link rule and both bars |
| `Pipeline` | pipeline.dfy | the page, the routes and the session components put together |

Behaviour worth knowing:

- **Missing text fields become `undefined`.** The proxy writes a missing text field into the multipart
  body as the text `undefined`. The page leaves out empty co-sponsors and an empty committee code, so these
  reach the webhook as `undefined`. `MakeProxy.ForwardedBody` and `Pipeline.ResolutionReachesWebhook` state
  this.
- **What the intake answers.** `POST /api/submit`:
  - a missing committee code is a 400 for missing fields;
  - an unparseable body is a 500;
  - only amendments are accepted;
  - success returns a fixed message.

  See `SubmitRoute.Handle`, `SubmitRoute.AmendmentWithoutCode` and `SubmitRoute.CompleteAmendment`.
- **Amendments without a stored code are refused by the intake.** The page sends `committeeCode: null`
  when no code is stored, and the intake then refuses the amendment (`Pipeline.AmendmentWithoutCodeRefused`).
- **Some webhook refusals lose their text.** A webhook status of 304 cannot carry a body, so
  passing it through as a JSON response throws. The catch then answers 500 with the error's wording, and
  the page shows that instead of the webhook's text (`Pipeline.WebhookNullBodyStatus`).
- **The brand panel does not notice a login.** It reads storage once, when it mounts in the root layout,
  and login leaves by a client-side `push`. The logout button therefore appears only after a full page load
  (`Pipeline.PanelStaleAfterLogin`).
- **The client cache key does not separate URL from key.** The cache key `` `${url}|${key}` `` lets two
  different configurations share one client (`CommitteeLogin.CacheKeyCollision`). The model keeps this as
  written.

## Model

| member | source | states |
|---|---|---|
| `Js.Transmit` | src/app/committee/page.tsx:57-73 | what the server receives after `JSON.stringify`: exactly the members whose value is not `undefined`, with their values, so reading any member gives what the sender had |
| `Utf8.Encode` | src/app/api/make-proxy/route.ts:29-31 | UTF-8 of a string is at least as long as the string |
| `Utf8.EncodeAppend` | src/app/api/make-proxy/route.ts:29-31 | encoding distributes over concatenation, so pushing strings in pieces gives the bytes of the whole |
| `Base64.Encode` | src/app/committee/page.tsx:49-54 | the browser's base64 text of n bytes has 4·⌈n/3⌉ characters, all ASCII, and never contains a comma |
| `Base64.Utf16` | src/app/api/make-proxy/route.ts:9 | a character is one code unit below U+10000 and otherwise a high and a low surrogate from which it is recovered |
| `Base64.LowBytes` | src/app/api/make-proxy/route.ts:9 | the decoder reads one or two Latin-1 characters per character of the text, never one above U+00FF |
| `Base64.LowBytesOfBmp` | src/app/api/make-proxy/route.ts:9 | a text without characters above U+FFFF is read one character each, as the character's value modulo 256 |
| `Base64.LowBytesOfLatin1` | src/app/api/make-proxy/route.ts:9 | a Latin-1 text is read as itself |
| `Base64.Decode` | src/app/api/make-proxy/route.ts:9 | Node's decoder yields ⌊3k/4⌋ bytes for the k alphabet characters before the first `=` among the low bytes it reads, and nothing exactly when k < 2 |
| `Base64.WideCharReadAsLowByte` | src/app/api/make-proxy/route.ts:9 | a character below U+10000 decodes as the Latin-1 character of its low byte, so `Ł` counts as `A` and `Ľ` as `=` |
| `Base64.AstralCharStopsDecoding` | src/app/api/make-proxy/route.ts:9 | `QQ` followed by U+1F600 decodes to the one byte 0x41 whatever follows, since the high surrogate's low byte is `=` |
| `Base64.RoundTrip` | src/app/api/make-proxy/route.ts:9 | decoding the browser's base64 text of any bytes gives those bytes back (section 4 of RFC 4648) |
| `Base64.SkipsNonAlphabet` | src/app/api/make-proxy/route.ts:9 | Latin-1 characters outside the alphabet and other than `=` are ignored by the decoder |
| `Base64.SextetsOfChars` | src/app/api/make-proxy/route.ts:9 | the decoder reads back every character the encoder wrote, and then goes on with what follows |
| `Base64.BytesOfSextetsFor` | src/app/api/make-proxy/route.ts:9 | regrouping the encoder's 6-bit groups into bytes restores the input bytes |
| `DataUrl.Split` | src/app/committee/page.tsx:59 | `split(",")` gives at least one piece and no piece contains a comma |
| `DataUrl.JoinSplit` | src/app/committee/page.tsx:59 | splitting loses nothing: joining the pieces with the separator restores the string |
| `DataUrl.SplitCount` | src/app/committee/page.tsx:59 | there is more than one piece exactly when the separator occurs |
| `DataUrl.AfterFirstComma` | src/app/committee/page.tsx:59 | `split(",")[1]` is `undefined` exactly when there is no comma, and never contains one |
| `DataUrl.PayloadOfDataUrl` | src/app/committee/page.tsx:49-59 | for a file whose media type has no comma, the page's cut of its data URL is exactly the base64 text of its bytes |
| `Multipart.Chunks` | src/app/api/make-proxy/route.ts:24-40 | three chunks per text field and six more; the file's bytes are one chunk on their own and the close delimiter is the last |
| `Multipart.FormParts` | src/app/api/make-proxy/route.ts:26-38 | one part per text field, in order, followed by the file part |
| `Multipart.BodyIsMultipart` | src/app/api/make-proxy/route.ts:24-42 | the bytes pushed in order are exactly the multipart body of RFC 2046 (dash-boundary, CRLF-separated encapsulations, close delimiter) over the form's parts |
| `MultipartReader.Find` | src/app/api/make-proxy/route.ts:29-42 | the position found is the first occurrence of the delimiter, and none means it occurs nowhere |
| `MultipartReader.JoinSplit` | src/app/api/make-proxy/route.ts:29-42 | cutting at every delimiter loses nothing: joining the pieces with it restores the octets |
| `MultipartReader.ReadsBack` | src/app/api/make-proxy/route.ts:24-42 | reading the multipart body of any non-empty list of parts gives back each part's header lines and content, provided no header line holds a CR and no part contains the delimiter |
| `MultipartReader.FormReadsBack` | src/app/api/make-proxy/route.ts:24-42 | reading the body the route pushes gives back every text field's value and then the file's octets, under the same proviso |
| `Multipart.BodyFraming` | src/app/api/make-proxy/route.ts:29-42 | the body starts with `--B` CRLF, ends with `--B--` CRLF, and holds the file's bytes in one piece just before the final CRLF and close delimiter |
| `MakeProxy.GeneratedBoundaryIsValid` | src/app/api/make-proxy/route.ts:23 | a boundary built from up to 48 hex digits is a valid RFC 2046 boundary: 1 to 70 characters from its boundary alphabet |
| `MakeProxy.MediaTypeFor` | src/app/api/make-proxy/route.ts:16-20 | PDF exactly for names ending in `.pdf` in any case; otherwise Word XML exactly for `.docx`; otherwise `application/msword` |
| `MakeProxy.MediaTypeIgnoresCase` | src/app/api/make-proxy/route.ts:16-20 | two names that differ only in letter case get the same media type |
| `MakeProxy.LowerSuffix` | src/app/api/make-proxy/route.ts:16-18 | testing the lower-cased name for a lower-case suffix is the case-insensitive suffix test |
| `MakeProxy.TextFields` | src/app/api/make-proxy/route.ts:26-28 | exactly five text fields, in the fixed order title, sponsor, cosponsors, committeeCode, type |
| `MakeProxy.BoundaryParameter` | src/app/api/make-proxy/route.ts:47 | a boundary read back from the header is the header's suffix after `boundary=` |
| `MakeProxy.Handle` | src/app/api/make-proxy/route.ts:3-73 | a request is forwarded exactly when the body is an object whose base64 decodes to at least one byte and whose file name is a string; an empty file is refused with 400 and nothing is sent; the header names the body's boundary, and the API key header is sent exactly when `MAKE_API_KEY` is non-empty; a non-2xx webhook status is passed through with "Submission failed: " and the webhook's text, except that a 304, the one non-2xx null-body status a `fetch` response can carry, makes building that response throw, which the catch answers with 500; a 2xx status gives 200 with that status; a failed fetch, a non-object body, a `data_base64` that is not a string, or (for a non-empty file) a `fileName` that is not a string gives 500 and sends nothing |
| `MakeProxy.ForwardedBody` | src/app/api/make-proxy/route.ts:23-47 | the forwarded body is the multipart body for the header's boundary. It has five text parts in fixed order, each the UTF-8 of the field's `String()` value (`undefined` when absent), and the decoded file as the last part with its chosen media type |
| `MakeProxy.ForwardedReadsBack` | src/app/api/make-proxy/route.ts:23-47 | when the boundary's random part is hexadecimal and no part contains the delimiter, a reader of the forwarded body gets back six parts: the five text fields' `String()` values in order and the decoded file |
| `MakeProxy.ForwardedFraming` | src/app/api/make-proxy/route.ts:29-42 | the forwarded body opens with the first delimiter line, ends with the close delimiter, and carries the decoded file verbatim before the final CRLF |
| `SubmitRoute.Handle` | src/app/api/submit/route.ts:3-48 | the checks run in order and the first failure decides: a type other than "amendment" gives 400, then any falsy resolution number, content or code gives 400, then missing configuration gives 500; with `createClient` assumed not to throw, an insert happens exactly when all pass, with the three columns taken from the three fields; an insert error gives 500 with its message, success gives 200 with a fixed message and no row data; a non-object body gives 500; no other status occurs |
| `SubmitRoute.CompleteAmendment` | src/app/api/submit/route.ts:10-43 | a complete amendment (GA1, R12) is inserted as the row (GA1, R12, content) and answered with 200 and the success message |
| `SubmitRoute.AmendmentWithoutCode` | src/app/api/submit/route.ts:14-16 | an amendment without a committee code is a 400 for missing fields, inserting nothing |
| `CommitteePage.MountedCode` | src/app/committee/page.tsx:19-23 | the code read at mount is the stored item when storage is usable and holds it, `null` otherwise |
| `CommitteePage.ResolutionBody` | src/app/committee/page.tsx:57-73 | the proxy receives the title, sponsor, file name and type as given; co-sponsors and the committee code only when non-empty; `data_base64` only when the data URL has a comma, and then its text after that comma |
| `CommitteePage.AmendmentBody` | src/app/committee/page.tsx:76-84 | the intake receives every form entry unchanged, and the type and stored code (`null` when none) unless an entry of that name overrides them |
| `CommitteePage.BuildRequest` | src/app/committee/page.tsx:31-85 | resolutions go only to the proxy and amendments only to the intake. A resolution without title, sponsor or a non-empty file is refused first; then a file over 10·1024·1024 bytes is refused and one of exactly that size is accepted; then an unreadable file is refused. An amendment is refused exactly when its resolution number or content is empty |
| `CommitteePage.FailureMessage` | src/app/committee/page.tsx:87-94 | the shown error is the JSON `detail` if truthy, else the JSON `error` if truthy, else the raw text, else "Submission failed"; it is never empty |
| `CommitteePage.OnSubmit` | src/app/committee/page.tsx:25-107 | afterwards loading is off and exactly one of message and error is set. Success needs a 2xx answer and gives the type's message and a form and file-name reset. A failure keeps the form and file name. A refused form sends nothing and shows why; an accepted form is sent exactly as `BuildRequest` built it. A 2xx answer always gives the type's success message, clears the error and resets the form and file name. A rejected fetch shows its message, or "Something went wrong" when it is empty. A non-2xx answer shows the extracted failure message |
| `CommitteeLogin.TrimStart` | src/components/CommitteeCodeLogin.tsx:54 | the result is a suffix of the input, everything removed is white space, and it does not start with white space |
| `CommitteeLogin.TrimEnd` | src/components/CommitteeCodeLogin.tsx:54 | the result is a prefix of the input, everything removed is white space, and it does not end with white space |
| `CommitteeLogin.Trim` | src/components/CommitteeCodeLogin.tsx:54 | `trim` gives the empty string exactly for all-white-space input, and otherwise a string with non-white ends |
| `CommitteeLogin.TrimPadded` | src/components/CommitteeCodeLogin.tsx:54 | any white space around a code with non-white ends is removed and the code itself kept |
| `CommitteeLogin.TrimIdempotent` | src/components/CommitteeCodeLogin.tsx:54 | trimming a trimmed code changes nothing |
| `CommitteeLogin.ResolvedUrl` | src/components/CommitteeCodeLogin.tsx:18-21 | the URL is the prop if given (even empty), else `NEXT_PUBLIC_SUPABASE_URL` if set, else `EXPO_PUBLIC_SUPABASE_URL` |
| `CommitteeLogin.ResolvedKey` | src/components/CommitteeCodeLogin.tsx:22-25 | the key is resolved by the same fallback over its own three sources |
| `CommitteeLogin.GetClient` | src/components/CommitteeCodeLogin.tsx:16-38 | with `createClient` assumed not to throw, it throws exactly when the resolved URL or key is missing or empty, so an explicit empty prop does not fall back. A cached client is returned unchanged; otherwise exactly one fresh client with the resolved configuration is created and cached. The cache only grows and keeps every client under the cache key of its own URL and key |
| `CommitteeLogin.SameClientAgain` | src/components/CommitteeCodeLogin.tsx:33-37 | a second call with the same arguments returns the very same client and creates nothing |
| `CommitteeLogin.CacheKeyCollision` | src/components/CommitteeCodeLogin.tsx:33-37 | two configurations whose URL and key join to the same cache key (URL `u` with key `a` plus a bar and `b`, and URL `u` plus a bar and `a` with key `b`) share one client, made for the first |
| `CommitteeLogin.Target` | src/components/CommitteeCodeLogin.tsx:77-80 | the target is the function's value for the row, or the given path, or `/committee` by default |
| `CommitteeLogin.HandleSubmit` | src/components/CommitteeCodeLogin.tsx:52-89 | only the trimmed code is looked up, and only when non-empty. A blank code gives "Please enter a code." and nothing else. A registry error or no row gives "Invalid code…" with no storage write and no navigation. Success stores the trimmed code under the configured key and then navigates to the target. A throw from storage, the lookup or the redirect function gives "Unexpected error…". Loading is off after every path that reached the lookup |
| `CommitteeLogin.LoginStoresTrimmedCode` | src/components/CommitteeCodeLogin.tsx:42-82 | with default props, a code typed with surrounding white space is stored without it under `userCommittee`, followed by a push to `/committee` |
| `CommitteeGuard.Missing` | src/components/CommitteeGuard.tsx:18-19 | the stored code counts as missing exactly when it is absent or empty; unreadable storage is reported apart |
| `CommitteeGuard.Guard` | src/components/CommitteeGuard.tsx:11-24 | `checked` always ends true; `/login` is never redirected; elsewhere the only effect is a replace to `/login`, exactly when storage is readable and holds no non-empty code; storage is never changed |
| `BrandPanel.Mount` | src/components/BrandPanel.tsx:8-12 | `hasCommittee` is true exactly when storage is usable and holds a non-empty code |
| `BrandPanel.Render` | src/components/BrandPanel.tsx:19-30 | the logout button is shown exactly when `hasCommittee` |
| `BrandPanel.Logout` | src/components/BrandPanel.tsx:23-26 | the key is removed (when storage is usable) and then the route is replaced by `/login`; the code is gone afterwards; `hasCommittee` is not reset |
| `Navigation.PrefixNotSegment` | src/components/TopTabs.tsx:16 | activity is a plain string prefix: `/committeeX` activates Committee and `/homework` activates `/home` |
| `TopTabs.Render` | src/components/TopTabs.tsx:5-20 | three links in list order (Committee, Submit, Executive), each marked `tab active` exactly when the active-link rule holds for it |
| `TopTabs.AtMostOneActive` | src/components/TopTabs.tsx:5-16 | for every pathname, no two tabs are active together |
| `TopTabs.ActiveTabs` | src/components/TopTabs.tsx:16 | Submit is active exactly on `/`; without a pathname no tab is active; a sub-path of `/committee` activates Committee |
| `BottomNav.Render` | src/components/BottomNav.tsx:6-26 | five links in list order; a link carries `active` exactly when its item is active and primary; only primary items get the bubble |
| `BottomNav.OnlyRootShowsActive` | src/components/BottomNav.tsx:6-21 | only the root item can show `active`, and it does exactly on `/`; it always has the bubble; without a pathname no item is active |
| `BottomNav.ActiveButNotShown` | src/components/BottomNav.tsx:19-21 | on `/home` the home item is active but its link has no `active` class |
| `Pipeline.ResolutionFileSurvives` | src/app/committee/page.tsx:49-73 | for a file read as the browser reads it, the page posts its base64 text to the proxy, and the proxy's decoding of that text is exactly the file's bytes |
| `Pipeline.ResolutionReachesWebhook` | src/app/api/make-proxy/route.ts:9-42 | a resolution the page accepts is forwarded as the multipart body whose parts carry the form's title, sponsor, the committee code (or `undefined`), "resolution", and the file's own bytes and name |
| `Pipeline.WebhookRefusalShown` | src/app/api/make-proxy/route.ts:58-62 | a webhook refusal with a status that may carry a body reaches the page as "Submission failed: " and the webhook's text, and the form is kept |
| `Pipeline.WebhookAcceptanceShown` | src/app/committee/page.tsx:95-101 | a webhook acceptance makes the page show "Resolution submitted ✔️" and reset the form |
| `Pipeline.WebhookNullBodyStatus` | src/app/api/make-proxy/route.ts:58-71 | a webhook refusal with status 304 reaches the page as the 500 of the catch, showing the thrown error's wording instead of "Submission failed: ", and the form is kept |
| `Pipeline.AmendmentWithoutCodeRefused` | src/app/committee/page.tsx:76-84 | with no stored code the amendment is sent with `committeeCode: null`, the intake inserts nothing, and the page shows "Missing required fields for amendment." |
| `Pipeline.AmendmentStored` | src/app/api/submit/route.ts:27-43 | with a stored code and configuration, the amendment becomes the row (code, resolution number, content) and the page shows "Amendment submitted ✔️" |
| `Pipeline.SessionCycle` | src/components/CommitteeGuard.tsx:17-22 | after a successful login the guard lets every page through and a brand panel mounted on the new storage (a full page load) offers logout; after that logout the guard sends every page but `/login` back to it |
| `Pipeline.PanelStaleAfterLogin` | src/components/BrandPanel.tsx:10-12 | login ends with a `push` to `/committee`, which keeps the layout's panel mounted; a panel mounted before login offers no logout, while one mounted on the new storage does |

## Left out

- Outside services are parameters. The webhook `fetch`, the datastore client's `insert` and `select … single()`, and `FileReader` are oracle functions. Their timing, retries and partial failures are not modelled.
- The boundary's random digits (`Math.random().toString(16).slice(2)`) are a parameter. Nothing is claimed about the boundary colliding with the file's bytes.
- The webhook URL and the literal API key are not modelled. Only whether the `x-make-apikey` header is sent is modelled.
- JSON numbers, arrays and nested objects are not field values in the model. A JSON body that is an array, a number, a string or a boolean is treated as an object without the fields read (reading a property of a primitive gives `undefined`).
- Pipeline.PayloadJson: the parsed response omits the numeric `zapierWebhookStatus`, because numbers are not field values in the model; the page never reads it.
- The runtime's wording of a caught error (`String(err)`) is not modelled. The routes report which failure occurred, and the page side takes the wording as a parameter.
- `console.error` logging is not modelled.
- Rendering is not modelled: JSX, `useState`/`useEffect` scheduling, the disabled buttons while loading, and interleavings of concurrent submits.
- The page's type menu and the file-name label set by the file input's `onChange` are not modelled; they are UI state.
- The guard returns `null` in every state. There is nothing to model beyond its effect.
- CommitteeLogin.GetClient: `createClient` is assumed not to throw. The datastore library may reject a URL it cannot parse; that throw is not modelled, so the only error is the missing-configuration one.
- SubmitRoute.Handle: `createClient` is assumed not to throw. A throw there would be caught and answered with 500 before any insert, but the model treats creation as total and attempts the insert whenever the checks pass.
- The login component calls `getSupabaseClient` during render. Its throw is `GetClient`'s error; what React does with a render-time throw is not modelled.
- A redirect function's result is taken as given. The default login page passes one that always returns `/committee`.
- `toLowerCase` is modelled as ASCII case folding. This decides `endsWith(".pdf")` and `endsWith(".docx")` exactly, because no other character lower-cases to one of those ASCII letters.
- MultipartReader: the reader accepts no preamble, transport padding or epilogue, which the route never writes; it is a reference for what the route writes, not a general parser.
- Strings are sequences of Unicode scalar values, so lone UTF-16 surrogates (which `Buffer.from` replaces) are not modelled.
- src/app/page.tsx (an older form without validation), src/app/layout.tsx and src/app/login/page.tsx are composition without logic of their own and are not part of this model.

=== FILE: base64.dfy ===
/**
 Base64 as used on both ends of the resolution upload.

 The browser side (`FileReader.readAsDataURL`) writes the canonical
 encoding of section 4 of RFC 4648: the standard alphabet, every three
 bytes become four characters, and a short final group is padded with `=`.

 The server side (`Buffer.from(s, 'base64')` in Node) is a forgiving
 decoder. It reads each UTF-16 code unit of the string by its low byte
 only, so a character above U+00FF stands for some Latin-1 character, and
 each half of a surrogate pair does too. On those bytes, characters outside
 the alphabet are skipped, the URL-safe `-` and `_` are accepted as 62 and
 63, decoding stops at the first `=`, and a final group of one, two or three
 characters yields zero, one or two bytes.
 */
module Base64 {
  import opened Common

  /** A six-bit value: one base64 character's worth of data. */
  type sextet = x: int | 0 <= x < 64

  /** The standard alphabet of Table 1 in RFC 4648. */
  function CharOf(x: sextet): (c: char)
    ensures c != '=' && c != ',' && c as int < 128
  {
    if x < 26 then (65 + x) as char
    else if x < 52 then (97 + (x - 26)) as char
    else if x < 62 then (48 + (x - 52)) as char
    else if x == 62 then '+'
    else '/'
  }

  /** The characters the decoder turns into data. */
  predicate IsDataChar(c: char)
  {
    'A' <= c <= 'Z' || 'a' <= c <= 'z' || '0' <= c <= '9'
    || c == '+' || c == '/' || c == '-' || c == '_'
  }

  function ValueOf(c: char): sextet
    requires IsDataChar(c)
  {
    if 'A' <= c <= 'Z' then c as int - 65
    else if 'a' <= c <= 'z' then c as int - 97 + 26
    else if '0' <= c <= '9' then c as int - 48 + 52
    else if c == '+' || c == '-' then 62
    else 63
  }

  lemma ValueOfCharOf(x: sextet)
    ensures IsDataChar(CharOf(x)) && ValueOf(CharOf(x)) == x
  {
  }

  // ---------------------------------------------------------------- encoding

  /** The sextets of a byte string, three bytes at a time; a short final
      group is filled with zero bits up to a whole sextet. */
  function SextetsFor(b: seq<byte>): (r: seq<sextet>)
    ensures |r| == (4 * |b| + 2) / 3
  {
    if |b| == 0 then []
    else if |b| == 1 then
      var x := b[0] as int;
      [x / 4, (x % 4) * 16]
    else if |b| == 2 then
      var x, y := b[0] as int, b[1] as int;
      [x / 4, (x % 4) * 16 + y / 16, (y % 16) * 4]
    else
      var x, y, z := b[0] as int, b[1] as int, b[2] as int;
      [x / 4, (x % 4) * 16 + y / 16, (y % 16) * 4 + z / 64, z % 64] + SextetsFor(b[3..])
  }

  function Chars(xs: seq<sextet>): (r: string)
    ensures |r| == |xs|
    ensures forall i :: 0 <= i < |xs| ==> r[i] == CharOf(xs[i])
  {
    seq(|xs|, i requires 0 <= i < |xs| => CharOf(xs[i]))
  }

  /** The `=` characters that complete the last group to four characters. */
  function Padding(n: nat): string
  {
    if n % 3 == 1 then "==" else if n % 3 == 2 then "=" else ""
  }

  /** The canonical base64 text of `b` (section 4 of RFC 4648). */
  function Encode(b: seq<byte>): (r: string)
    ensures |r| == 4 * ((|b| + 2) / 3)
    ensures forall i :: 0 <= i < |r| ==> r[i] != ',' && r[i] as int < 128
  {
    EncodedLength(|b|);
    Chars(SextetsFor(b)) + Padding(|b|)
  }

  lemma EncodedLength(n: nat)
    ensures (4 * n + 2) / 3 + |Padding(n)| == 4 * ((n + 2) / 3)
  {
    var q, m := n / 3, n % 3;
    assert n == 3 * q + m;
    if m == 0 {
      assert (4 * n + 2) / 3 == 4 * q;
      assert (n + 2) / 3 == q;
    } else if m == 1 {
      assert (4 * n + 2) / 3 == 4 * q + 2;
      assert (n + 2) / 3 == q + 1;
    } else {
      assert (4 * n + 2) / 3 == 4 * q + 3;
      assert (n + 2) / 3 == q + 1;
    }
  }

  // ---------------------------------------------------------------- decoding

  /** The UTF-16 code units of one character: itself below U+10000, else a
      high and a low surrogate that together give the character back. */
  function Utf16(c: char): (r: seq<int>)
    ensures 1 <= |r| <= 2 && forall i :: 0 <= i < |r| ==> 0 <= r[i] < 0x10000
    ensures |r| == 1 <==> c as int < 0x10000
    ensures |r| == 1 ==> r[0] == c as int
    ensures |r| == 2 ==> && 0xD800 <= r[0] < 0xDC00 && 0xDC00 <= r[1] < 0xE000
                         && 0x10000 + (r[0] - 0xD800) * 0x400 + (r[1] - 0xDC00) == c as int
  {
    if c as int < 0x10000 then [c as int]
    else
      var v := c as int - 0x10000;
      [0xD800 + v / 0x400, 0xDC00 + v % 0x400]
  }

  /** The Latin-1 character a code unit is read as: its low byte. */
  function LowByte(u: int): (c: char)
    requires 0 <= u
    ensures c as int < 256 && c as int == u % 256
  {
    (u % 256) as char
  }

  /** What the decoder reads of a string: the low byte of every UTF-16 code
      unit, in order. */
  function LowBytes(s: string): (r: string)
    ensures |s| <= |r| <= 2 * |s|
    ensures forall i :: 0 <= i < |r| ==> r[i] as int < 256
  {
    if |s| == 0 then []
    else
      var us := Utf16(s[0]);
      (if |us| == 1 then [LowByte(us[0])] else [LowByte(us[0]), LowByte(us[1])]) + LowBytes(s[1..])
  }

  lemma {:induction false} LowBytesAppend(s: string, t: string)
    ensures LowBytes(s + t) == LowBytes(s) + LowBytes(t)
  {
    if |s| == 0 {
      assert s + t == t;
    } else {
      assert (s + t)[0] == s[0];
      assert (s + t)[1..] == s[1..] + t;
      LowBytesAppend(s[1..], t);
    }
  }

  /** A string of characters below U+10000 is read one character each, as
      its low byte. */
  lemma {:induction false} LowBytesOfBmp(s: string)
    requires forall i :: 0 <= i < |s| ==> s[i] as int < 0x10000
    ensures |LowBytes(s)| == |s|
    ensures forall i :: 0 <= i < |s| ==> LowBytes(s)[i] as int == s[i] as int % 256
  {
    if |s| > 0 {
      LowBytesOfBmp(s[1..]);
      assert LowBytes(s) == [LowByte(s[0] as int)] + LowBytes(s[1..]);
    }
  }

  /** A Latin-1 string is read as itself. */
  lemma {:induction false} LowBytesOfLatin1(s: string)
    requires forall i :: 0 <= i < |s| ==> s[i] as int < 256
    ensures LowBytes(s) == s
  {
    if |s| > 0 {
      LowBytesOfLatin1(s[1..]);
      assert Utf16(s[0]) == [s[0] as int];
      assert LowByte(s[0] as int) == s[0];
      assert s == [s[0]] + s[1..];
    }
  }

  /** The data sextets the decoder reads from the low bytes: every alphabet
      character up to the first `=`, other characters being skipped. */
  function SextetsOf(s: string): (r: seq<sextet>)
    ensures |r| <= |s|
  {
    if |s| == 0 || s[0] == '=' then []
    else if IsDataChar(s[0]) then [ValueOf(s[0])] + SextetsOf(s[1..])
    else SextetsOf(s[1..])
  }

  /** The byte made of all six bits of `a` and the top two bits of `b`. */
  function High(a: sextet, b: sextet): byte
  {
    (a as int * 4 + b as int / 16) as byte
  }

  /** The byte made of the low four bits of `a` and the top four bits of `b`. */
  function Middle(a: sextet, b: sextet): byte
  {
    ((a as int % 16) * 16 + b as int / 4) as byte
  }

  /** The byte made of the low two bits of `a` and all six bits of `b`. */
  function Low(a: sextet, b: sextet): byte
  {
    ((a as int % 4) * 64 + b as int) as byte
  }

  /** Reassembles bytes from sextets, four sextets to three bytes; a final
      group of n < 4 sextets gives n - 1 bytes (none for a single sextet). */
  function BytesOf(xs: seq<sextet>): (r: seq<byte>)
    ensures |r| == 3 * |xs| / 4
  {
    if |xs| >= 4 then
      [High(xs[0], xs[1]), Middle(xs[1], xs[2]), Low(xs[2], xs[3])] + BytesOf(xs[4..])
    else if |xs| == 3 then
      [High(xs[0], xs[1]), Middle(xs[1], xs[2])]
    else if |xs| == 2 then
      [High(xs[0], xs[1])]
    else
      []
  }

  /** `Buffer.from(s, 'base64')`. */
  function Decode(s: string): (r: seq<byte>)
    ensures |r| == 3 * |SextetsOf(LowBytes(s))| / 4
    ensures |r| == 0 <==> |SextetsOf(LowBytes(s))| < 2
  {
    BytesOf(SextetsOf(LowBytes(s)))
  }

  // ---------------------------------------------------------------- round trip

  lemma {:induction false} BytesOfSextetsFor(b: seq<byte>)
    ensures BytesOf(SextetsFor(b)) == b
  {
    if |b| >= 3 {
      var x, y, z := b[0] as int, b[1] as int, b[2] as int;
      var g: seq<sextet> := [x / 4, (x % 4) * 16 + y / 16, (y % 16) * 4 + z / 64, z % 64];
      var xs := SextetsFor(b);
      assert xs == g + SextetsFor(b[3..]);
      assert xs[4..] == SextetsFor(b[3..]);
      BytesOfSextetsFor(b[3..]);
      assert b == [b[0], b[1], b[2]] + b[3..];
    } else if |b| == 2 {
      assert b == [b[0], b[1]];
    } else if |b| == 1 {
      assert b == [b[0]];
    }
  }

  /** Decoding skips nothing and reads everything in a run of alphabet
      characters, up to whatever follows it. */
  lemma {:induction false} SextetsOfChars(xs: seq<sextet>, rest: string)
    ensures SextetsOf(Chars(xs) + rest) == xs + SextetsOf(rest)
  {
    if |xs| == 0 {
      assert Chars(xs) + rest == rest;
    } else {
      var s := Chars(xs) + rest;
      ValueOfCharOf(xs[0]);
      assert s[0] == CharOf(xs[0]);
      assert s[1..] == Chars(xs[1..]) + rest;
      SextetsOfChars(xs[1..], rest);
      assert xs == [xs[0]] + xs[1..];
    }
  }

  lemma PaddingStopsDecoding(n: nat)
    ensures SextetsOf(Padding(n)) == []
  {
  }

  /** Decoding the canonical encoding of any byte string gives the bytes back. */
  lemma RoundTrip(b: seq<byte>)
    ensures Decode(Encode(b)) == b
  {
    LowBytesOfLatin1(Encode(b));
    SextetsOfChars(SextetsFor(b), Padding(|b|));
    PaddingStopsDecoding(|b|);
    assert SextetsFor(b) + [] == SextetsFor(b);
    BytesOfSextetsFor(b);
  }

  /** Latin-1 characters outside the alphabet (line breaks, spaces) do not
      change what is decoded. */
  lemma SkipsNonAlphabet(s: string, t: string)
    requires forall i :: 0 <= i < |s| ==> s[i] as int < 256 && !IsDataChar(s[i]) && s[i] != '='
    ensures Decode(s + t) == Decode(t)
  {
    LowBytesAppend(s, t);
    LowBytesOfLatin1(s);
    SkipsNonData(s, LowBytes(t));
  }

  lemma {:induction false} SkipsNonData(s: string, t: string)
    requires forall i :: 0 <= i < |s| ==> !IsDataChar(s[i]) && s[i] != '='
    ensures SextetsOf(s + t) == SextetsOf(t)
  {
    if |s| > 0 {
      assert (s + t)[0] == s[0];
      assert (s + t)[1..] == s[1..] + t;
      SkipsNonData(s[1..], t);
    } else {
      assert s + t == t;
    }
  }

  /** A character below U+10000 decodes as the Latin-1 character of its low
      byte: `Ł` (U+0141) as `A`, `Ľ` (U+013D) as `=`. */
  lemma WideCharReadAsLowByte(c: char, t: string)
    requires c as int < 0x10000
    ensures Decode([c] + t) == Decode([LowByte(c as int)] + t)
  {
    LowBytesAppend([c], t);
    LowBytesAppend([LowByte(c as int)], t);
    assert LowBytes([c]) == [LowByte(c as int)];
    assert LowBytes([LowByte(c as int)]) == [LowByte(c as int)];
  }

  /** A character above U+FFFF is read as two bytes, those of its surrogates;
      for U+1F600 the first is `=` (0x3D of U+D83D), which ends decoding. */
  lemma AstralCharStopsDecoding(t: string)
    ensures Decode("QQ\U{1F600}" + t) == [0x41]
  {
    var s := "QQ\U{1F600}";
    LowBytesAppend(s, t);
    assert LowBytes(s) == "QQ=\U{0}" by {
      assert s[1..] == "Q\U{1F600}";
      assert s[2..] == "\U{1F600}";
      assert Utf16(s[2]) == [0xD83D, 0xDE00];
    }
    var r := LowBytes(s) + LowBytes(t);
    assert r[0] == 'Q' && r[1] == 'Q' && r[2] == '=';
    assert r[1..][1..] == r[2..];
    assert SextetsOf(r[2..]) == [];
    assert SextetsOf(r[1..]) == [16];
    assert SextetsOf(r) == [16, 16];
  }
}

=== FILE: bottomnav.dfy ===
/**
 The bottom navigation: five fixed items, one of them primary. An item's
 link carries the `active` class only when it is both active and primary,
 and only the primary item's icon sits in a bubble.
 */
module BottomNav {
  import opened Common
  import Navigation

  datatype Item = Item(href: string, primary: bool)

  /** A rendered item: its target, its class attribute, and whether its icon
      is wrapped in the bubble. */
  datatype Link = Link(href: string, className: string, bubble: bool)

  const Items: seq<Item> := [
    Item("/home", false), Item("/schedule", false), Item("/", true),
    Item("/documents", false), Item("/more", false)]

  /** The index of the one primary item. */
  const PrimaryIndex: nat := 2

  /** `` `nav-item ${active && primary ? 'active' : ''}` ``. */
  function ClassName(active: bool, primary: bool): (r: string)
    ensures r == "nav-item active" <==> active && primary
  {
    "nav-item " + (if active && primary then "active" else "")
  }

  /** The navigation bar for a pathname (`None` for `null`). */
  function Render(pathname: Option<string>): (r: seq<Link>)
    ensures |r| == |Items|
    ensures forall i :: 0 <= i < |r| ==> r[i].href == Items[i].href && (r[i].bubble <==> Items[i].primary)
    ensures forall i :: 0 <= i < |r| ==>
              (r[i].className == "nav-item active" <==> Navigation.IsActive(Items[i].href, pathname) && Items[i].primary)
  {
    seq(|Items|, i requires 0 <= i < |Items| =>
      Link(Items[i].href, ClassName(Navigation.IsActive(Items[i].href, pathname), Items[i].primary), Items[i].primary))
  }

  /** Exactly one item is primary: the root. */
  lemma OnePrimary()
    ensures forall i :: 0 <= i < |Items| ==> (Items[i].primary <==> i == PrimaryIndex)
    ensures Items[PrimaryIndex].href == "/"
  {
  }

  /** So only the root item ever shows as active, and it does exactly on the
      root pathname, whatever other item's prefix the pathname matches. */
  lemma OnlyRootShowsActive(pathname: Option<string>)
    ensures forall i :: 0 <= i < |Items| && i != PrimaryIndex ==> Render(pathname)[i].className != "nav-item active"
    ensures Render(pathname)[PrimaryIndex].className == "nav-item active" <==> pathname == Some("/")
    ensures Render(pathname)[PrimaryIndex].bubble
    ensures pathname.None? ==> forall i :: 0 <= i < |Items| ==> !Navigation.IsActive(Items[i].href, pathname)
  {
    OnePrimary();
  }

  /** An item can be active without showing it: on `/home` the home item is
      active, but its link has no `active` class. */
  lemma ActiveButNotShown()
    ensures Navigation.IsActive(Items[0].href, Some("/home"))
    ensures Render(Some("/home"))[0].className == "nav-item "
  {
    assert "/home" <= "/home";
  }
}

=== FILE: brandpanel.dfy ===
/**
 The brand panel in the layout: it reads once, at mount, whether a committee
 code is stored, shows a "Log out" button only then, and logging out forgets
 the code and replaces the route with the login page.
 */
module BrandPanel {
  import opened Common
  import Browser
  import CommitteeGuard

  /** The panel's state: `hasCommittee`, set at mount and never again. */
  datatype Panel = Panel(hasCommittee: bool)

  /** What the panel shows besides its logo. */
  datatype View = View(logoutButton: bool)

  /** The effects of a click on "Log out" and the panel afterwards. */
  datatype LoggedOut = LoggedOut(panel: Panel, effects: seq<Browser.Effect>)

  /** The state after the mount effect: `!!localStorage.getItem(...)`,
      staying `false` when storage throws. */
  function Mount(storage: Browser.Storage): (r: Panel)
    ensures r.hasCommittee <==>
              storage.available && Browser.CommitteeKey in storage.items && storage.items[Browser.CommitteeKey] != ""
  {
    match Browser.GetItem(storage, Browser.CommitteeKey)
    case None => Panel(false)
    case Some(v) => Panel(v.Some? && v.value != "")
  }

  /** The rendered panel. */
  function Render(panel: Panel): (r: View)
    ensures r.logoutButton <==> panel.hasCommittee
  {
    View(panel.hasCommittee)
  }

  /** The logout click: remove the key (a throw is swallowed), then replace
      the route. `hasCommittee` is left as it was. */
  function Logout(panel: Panel, storage: Browser.Storage): (r: LoggedOut)
    ensures r.panel == panel
    ensures |r.effects| >= 1 && r.effects[|r.effects| - 1] == Browser.Replaced(CommitteeGuard.LoginPath)
    ensures storage.available ==> r.effects == [Browser.Removed(Browser.CommitteeKey), Browser.Replaced(CommitteeGuard.LoginPath)]
    ensures !storage.available ==> r.effects == [Browser.Replaced(CommitteeGuard.LoginPath)]
    ensures Browser.CommitteeKey !in Browser.Apply(storage, r.effects).items || !storage.available
  {
    var effects := (if storage.available then [Browser.Removed(Browser.CommitteeKey)] else [])
                   + [Browser.Replaced(CommitteeGuard.LoginPath)];
    RemoveThenNavigate(storage);
    LoggedOut(panel, effects)
  }

  lemma RemoveThenNavigate(storage: Browser.Storage)
    ensures Browser.Apply(storage, [Browser.Removed(Browser.CommitteeKey), Browser.Replaced(CommitteeGuard.LoginPath)]).items
            == storage.items - {Browser.CommitteeKey}
  {
    var effects := [Browser.Removed(Browser.CommitteeKey), Browser.Replaced(CommitteeGuard.LoginPath)];
    var next := storage.(items := storage.items - {Browser.CommitteeKey});
    assert effects[1..] == [Browser.Replaced(CommitteeGuard.LoginPath)];
    assert Browser.Apply(next, effects[1..]) == Browser.Apply(next, []) by {
      assert effects[1..][1..] == [];
    }
  }
}

=== FILE: browser.dfy ===
/**
 The ambient browser state the components touch, made explicit: the origin's
 `localStorage` and the navigations they ask the router for.
 */
module Browser {
  import opened Common

  /** `localStorage`: its items, and whether it can be used at all (every
      access throws when it cannot, for instance when storage is disabled). */
  datatype Storage = Storage(items: map<string, string>, available: bool)

  /** One observable side effect, in the order it happened. */
  datatype Effect =
    | Stored(key: string, value: string)   // localStorage.setItem
    | Removed(key: string)                 // localStorage.removeItem
    | Pushed(path: string)                 // router.push
    | Replaced(path: string)               // router.replace

  /** The key under which the committee code is kept. */
  const CommitteeKey: string := "userCommittee"

  /** `localStorage.getItem(key)` inside a `try` whose `catch` is empty:
      `None` when it threw, otherwise the item or `null` (`None` inside). */
  function GetItem(storage: Storage, key: string): (r: Option<Option<string>>)
    ensures r.None? <==> !storage.available
    ensures r.Some? ==> (r.value.Some? <==> key in storage.items)
    ensures r.Some? && r.value.Some? ==> r.value.value == storage.items[key]
  {
    if !storage.available then None
    else if key in storage.items then Some(Some(storage.items[key]))
    else Some(None)
  }

  /** The storage after a list of effects; navigations leave it alone. */
  function Apply(storage: Storage, effects: seq<Effect>): (r: Storage)
    // No effect makes storage usable or unusable.
    ensures r.available == storage.available
    decreases |effects|
  {
    if |effects| == 0 then storage
    else
      var next := match effects[0]
        case Stored(k, v) => storage.(items := storage.items[k := v])
        case Removed(k) => storage.(items := storage.items - {k})
        case _ => storage;
      Apply(next, effects[1..])
  }
}

=== FILE: committeeguard.dfy ===
/**
 The committee guard, mounted on protected pages: on every pathname except
 the login page it sends the visitor to `/login` when no committee code is
 stored. It renders nothing, whatever its state.
 */
module CommitteeGuard {
  import opened Common
  import Browser

  const LoginPath: string := "/login"

  /** The guard's effect run: the navigations it asked for and its `checked` flag. */
  datatype Checked = Checked(effects: seq<Browser.Effect>, checked: bool)

  /** Whether the stored committee code is `null` or empty, as `!code` tests
      it; `None` when reading storage threw. */
  function Missing(storage: Browser.Storage): (r: Option<bool>)
    ensures r.None? <==> !storage.available
    ensures r.Some? ==> (r.value <==> Browser.CommitteeKey !in storage.items || storage.items[Browser.CommitteeKey] == "")
  {
    match Browser.GetItem(storage, Browser.CommitteeKey)
    case None => None
    case Some(v) => Some(v.None? || v.value == "")
  }

  /** The guard's effect for one pathname. */
  function Guard(pathname: string, storage: Browser.Storage): (r: Checked)
    // The check always completes, even when storage throws.
    ensures r.checked
    // The login page itself is never guarded.
    ensures pathname == LoginPath ==> r.effects == []
    // Elsewhere: a redirect exactly when storage can be read and holds no
    // usable code; an unreadable storage is let through.
    ensures pathname != LoginPath ==>
              (r.effects != [] <==>
                 storage.available
                 && (Browser.CommitteeKey !in storage.items || storage.items[Browser.CommitteeKey] == ""))
    // The only effect it ever has is replacing the route with the login page.
    ensures r.effects == [] || r.effects == [Browser.Replaced(LoginPath)]
    // Storage is only read.
    ensures Browser.Apply(storage, r.effects) == storage
  {
    if pathname == LoginPath then Checked([], true)
    else
      var effects := if Missing(storage) == Some(true) then [Browser.Replaced(LoginPath)] else [];
      NavigationKeepsStorage(storage, effects);
      Checked(effects, true)
  }

  /** Navigations alone leave storage as it was. */
  lemma {:induction false} NavigationKeepsStorage(storage: Browser.Storage, effects: seq<Browser.Effect>)
    requires forall i :: 0 <= i < |effects| ==> effects[i].Pushed? || effects[i].Replaced?
    ensures Browser.Apply(storage, effects) == storage
  {
    if |effects| > 0 {
      NavigationKeepsStorage(storage, effects[1..]);
    }
  }
}

=== FILE: committeelogin.dfy ===
/**
 The committee-code login: the datastore client it builds from configuration
 (with a module-level cache keyed by `url|key`) and `handleSubmit`, which
 trims the typed code, looks it up in the `committees` registry, stores it
 and navigates on.

 The registry is a parameter: `lookup` answers the single-row query for a
 code. Client creation is modelled by the fresh identity it hands out.
 */
module CommitteeLogin {
  import opened Common
  import Js
  import Browser

  // ---------------------------------------------------------------------
  // String.prototype.trim

  /** The characters `trim` removes: ECMAScript's WhiteSpace (tab, vertical
      tab, form feed, space, no-break space, byte order mark and the other
      space separators) and LineTerminator (LF, CR, LS, PS). */
  predicate IsWhite(c: char)
  {
    || c == '\U{0009}' || c == '\U{000B}' || c == '\U{000C}' || c == ' ' || c == '\U{00A0}' || c == '\U{FEFF}'
    || c == '\U{1680}' || ('\U{2000}' <= c <= '\U{200A}') || c == '\U{202F}' || c == '\U{205F}' || c == '\U{3000}'
    || c == '\U{000A}' || c == '\U{000D}' || c == '\U{2028}' || c == '\U{2029}'
  }

  predicate AllWhite(s: string)
  {
    forall i :: 0 <= i < |s| ==> IsWhite(s[i])
  }

  /** `s` without its leading white space. */
  function TrimStart(s: string): (r: string)
    ensures |r| <= |s| && r == s[|s| - |r|..]
    ensures AllWhite(s[..|s| - |r|])
    ensures r == [] || !IsWhite(r[0])
  {
    if |s| > 0 && IsWhite(s[0]) then
      var r := TrimStart(s[1..]);
      assert s[..|s| - |r|] == [s[0]] + s[1..][..|s| - 1 - |r|];
      assert s[|s| - |r|..] == s[1..][|s| - 1 - |r|..];
      r
    else s
  }

  /** `s` without its trailing white space. */
  function TrimEnd(s: string): (r: string)
    ensures |r| <= |s| && r == s[..|r|]
    ensures AllWhite(s[|r|..])
    ensures r == [] || !IsWhite(r[|r| - 1])
  {
    if |s| > 0 && IsWhite(s[|s| - 1]) then
      var r := TrimEnd(s[..|s| - 1]);
      assert s[..|s| - 1][..|r|] == s[..|r|];
      assert s[|r|..] == s[..|s| - 1][|r|..] + [s[|s| - 1]];
      r
    else s
  }

  /** `s.trim()`. */
  function Trim(s: string): (r: string)
    ensures r == [] <==> AllWhite(s)
    ensures r != [] ==> !IsWhite(r[0]) && !IsWhite(r[|r| - 1])
    ensures |r| <= |s|
  {
    var t := TrimStart(s);
    var r := TrimEnd(t);
    TrimSplit(s, t, r);
    r
  }

  /** The facts Trim's contract rests on, for `t` the start-trimmed `s` and
      `r` the end-trimmed `t`. */
  lemma TrimSplit(s: string, t: string, r: string)
    requires t == TrimStart(s) && r == TrimEnd(t)
    ensures r == [] <==> AllWhite(s)
    ensures r != [] ==> r[0] == t[0]
  {
    if r == [] {
      assert AllWhite(t) by {
        assert t[|r|..] == t;
      }
      assert AllWhite(s) by {
        var w := s[..|s| - |t|];
        assert s == w + t;
        AllWhiteConcat(w, t);
      }
    } else {
      assert r[0] == t[0];
      assert !AllWhite(s) by {
        assert s[|s| - |t|] == t[0];
      }
    }
  }

  lemma AllWhiteConcat(a: string, b: string)
    requires AllWhite(a) && AllWhite(b)
    ensures AllWhite(a + b)
  {
    assert forall i :: |a| <= i < |a + b| ==> (a + b)[i] == b[i - |a|];
  }

  /** A string that starts after its white space is left alone by TrimStart. */
  lemma {:induction false} TrimStartPadded(w: string, t: string)
    requires AllWhite(w)
    requires t == [] || !IsWhite(t[0])
    ensures TrimStart(w + t) == t
  {
    if |w| > 0 {
      assert (w + t)[1..] == w[1..] + t;
      TrimStartPadded(w[1..], t);
    } else {
      assert w + t == t;
    }
  }

  /** A string that ends before its white space is left alone by TrimEnd. */
  lemma {:induction false} TrimEndPadded(t: string, w: string)
    requires AllWhite(w)
    requires t != [] && !IsWhite(t[|t| - 1])
    ensures TrimEnd(t + w) == t
  {
    if |w| > 0 {
      var s := t + w;
      assert s[|s| - 1] == w[|w| - 1];
      assert s[..|s| - 1] == t + w[..|w| - 1];
      TrimEndPadded(t, w[..|w| - 1]);
    } else {
      assert t + w == t;
    }
  }

  /** `trim` is exactly "drop surrounding white space": whatever white space
      pads a code with non-white ends, trimming gives back the code. */
  lemma TrimPadded(before: string, code: string, after: string)
    requires AllWhite(before) && AllWhite(after)
    requires code != [] && !IsWhite(code[0]) && !IsWhite(code[|code| - 1])
    ensures Trim(before + code + after) == code
  {
    assert before + code + after == before + (code + after);
    TrimStartPadded(before, code + after);
    TrimEndPadded(code, after);
  }

  /** Trimming twice changes nothing more. */
  lemma TrimIdempotent(s: string)
    ensures Trim(Trim(s)) == Trim(s)
  {
    var t := Trim(s);
    if t != [] {
      TrimPadded([], t, []);
      assert [] + t + [] == t;
    }
  }

  // ---------------------------------------------------------------------
  // getSupabaseClient

  /** The four environment variables the component may read; `None` is
      `undefined`. */
  datatype Env = Env(nextUrl: Option<string>, expoUrl: Option<string>,
                     nextKey: Option<string>, expoKey: Option<string>)

  /** A created client: a fresh identity and the configuration it was made with. */
  datatype Client = Client(id: nat, url: string, key: string)

  /** The module-level cache and the number of clients created so far. */
  datatype Cache = Cache(entries: map<string, Client>, created: nat)

  /** What a successful call returns: the client and the cache after the call. */
  datatype Got = Got(client: Client, cache: Cache)

  const MissingConfigMessage: string :=
    "Supabase URL/Anon Key missing. Set NEXT_PUBLIC_SUPABASE_URL and NEXT_PUBLIC_SUPABASE_ANON_KEY (or EXPO_PUBLIC_ variants)."

  /** `url ?? NEXT_PUBLIC_SUPABASE_URL ?? EXPO_PUBLIC_SUPABASE_URL`. */
  function ResolvedUrl(url: Option<string>, env: Env): (r: Option<string>)
    ensures url.Some? ==> r == url
    ensures url.None? && env.nextUrl.Some? ==> r == env.nextUrl
    ensures url.None? && env.nextUrl.None? ==> r == env.expoUrl
  {
    Js.Coalesce(url, Js.Coalesce(env.nextUrl, env.expoUrl))
  }

  /** The key, resolved the same way from its own three sources. */
  function ResolvedKey(key: Option<string>, env: Env): (r: Option<string>)
    ensures key.Some? ==> r == key
    ensures key.None? && env.nextKey.Some? ==> r == env.nextKey
    ensures key.None? && env.nextKey.None? ==> r == env.expoKey
  {
    Js.Coalesce(key, Js.Coalesce(env.nextKey, env.expoKey))
  }

  /** `` `${url}|${key}` ``. */
  function CacheKey(url: string, key: string): string
  {
    url + "|" + key
  }

  /** Every cached client sits under the key of its own configuration, and
      every identity handed out so far is below the creation count. */
  predicate Valid(cache: Cache)
  {
    forall k :: k in cache.entries ==>
      CacheKey(cache.entries[k].url, cache.entries[k].key) == k && cache.entries[k].id < cache.created
  }

  /** `getSupabaseClient(url, key)`: the error message it throws, or the
      client and the updated cache. */
  function GetClient(url: Option<string>, key: Option<string>, env: Env, cache: Cache): (r: Result<Got, string>)
    // It throws exactly when the resolved URL or key is missing or empty;
    // an explicit empty override does not fall back to the environment.
    ensures r.Err? <==> !Js.Truthy(OptStr(ResolvedUrl(url, env))) || !Js.Truthy(OptStr(ResolvedKey(key, env)))
    ensures r.Err? ==> r.error == MissingConfigMessage
    // The client answers for the resolved configuration's cache key.
    ensures r.Ok? && Valid(cache) ==>
              CacheKey(r.value.client.url, r.value.client.key)
              == CacheKey(ResolvedUrl(url, env).value, ResolvedKey(key, env).value)
    // A cached client is returned as is, without creating another.
    ensures r.Ok? && CacheKey(ResolvedUrl(url, env).value, ResolvedKey(key, env).value) in cache.entries ==>
              r.value == Got(cache.entries[CacheKey(ResolvedUrl(url, env).value, ResolvedKey(key, env).value)], cache)
    // Otherwise exactly one client is created, fresh, with the resolved configuration.
    ensures r.Ok? && CacheKey(ResolvedUrl(url, env).value, ResolvedKey(key, env).value) !in cache.entries ==>
              && r.value.client == Client(cache.created, ResolvedUrl(url, env).value, ResolvedKey(key, env).value)
              && r.value.cache.created == cache.created + 1
              && r.value.cache.entries.Keys == cache.entries.Keys + {CacheKey(r.value.client.url, r.value.client.key)}
    // The cache only grows, and stays well formed.
    ensures r.Ok? ==> forall k :: k in cache.entries ==> k in r.value.cache.entries && r.value.cache.entries[k] == cache.entries[k]
    ensures r.Ok? && Valid(cache) ==> Valid(r.value.cache)
  {
    var u, k := ResolvedUrl(url, env), ResolvedKey(key, env);
    if !Js.Truthy(OptStr(u)) || !Js.Truthy(OptStr(k)) then
      Err(MissingConfigMessage)
    else
      var ck := CacheKey(u.value, k.value);
      if ck in cache.entries then
        Ok(Got(cache.entries[ck], cache))
      else
        var c := Client(cache.created, u.value, k.value);
        Ok(Got(c, Cache(cache.entries[ck := c], cache.created + 1)))
  }

  /** A string or `undefined` as a JavaScript value. */
  function OptStr(v: Option<string>): (r: Js.Value)
    ensures v.None? ==> r == Js.Undefined
    ensures v.Some? ==> r == Js.Str(v.value)
  {
    if v.Some? then Js.Str(v.value) else Js.Undefined
  }

  /** Memoisation: a second call with the same arguments returns the very
      same client and creates nothing. */
  lemma SameClientAgain(url: Option<string>, key: Option<string>, env: Env, cache: Cache)
    requires GetClient(url, key, env, cache).Ok?
    ensures GetClient(url, key, env, GetClient(url, key, env, cache).value.cache)
            == Ok(GetClient(url, key, env, cache).value)
  {
  }

  /** The cache key does not separate its two parts: a URL ending in `|a`
      with key `b` and a URL with key `a|b` share one client, whichever is
      asked for first. */
  lemma CacheKeyCollision(env: Env, cache: Cache)
    requires Valid(cache) && CacheKey("u|a", "b") !in cache.entries
    ensures var first := GetClient(Some("u|a"), Some("b"), env, cache);
            && first.Ok?
            && GetClient(Some("u"), Some("a|b"), env, first.value.cache) == Ok(Got(first.value.client, first.value.cache))
            && first.value.client.key == "b"
  {
    assert CacheKey("u", "a|b") == CacheKey("u|a", "b");
  }

  // ---------------------------------------------------------------------
  // handleSubmit

  /** A row of the `committees` table, as the client returns it. */
  type Row = map<string, Js.Value>

  /** The `redirect` prop: absent, a path, or a function of the row (`None`
      when that function throws). */
  datatype Redirect = Default | To(path: string) | ByCommittee(target: Row -> Option<string>)

  /** The component's props other than the client overrides. */
  datatype Props = Props(redirect: Redirect, storageKey: string)

  /** What `.single()` resolved to (`data`, and whether `error` was set), or
      that the query threw. */
  datatype LookupOutcome = Answered(data: Option<Row>, failed: bool) | LookupThrew

  datatype LoginState = LoginState(code: string, loading: bool, error: Option<string>)

  /** The form after a submit, the code it looked up (if any) and its side
      effects in order. */
  datatype Submitted = Submitted(state: LoginState, queried: Option<string>, effects: seq<Browser.Effect>)

  const DefaultTarget: string := "/committee"
  const EnterCodeMessage: string := "Please enter a code."
  const InvalidCodeMessage: string := "Invalid code. Please check and try again."
  const UnexpectedMessage: string := "Unexpected error. Please try again."

  /** The default props: no redirect, the usual storage key. */
  const DefaultProps: Props := Props(Default, Browser.CommitteeKey)

  /** Where a successful login goes, or `None` if the redirect function throws. */
  function Target(redirect: Redirect, row: Row): (r: Option<string>)
    ensures redirect.Default? ==> r == Some(DefaultTarget)
    ensures redirect.To? ==> r == Some(redirect.path)
    ensures redirect.ByCommittee? ==> r == redirect.target(row)
  {
    match redirect
    case Default => Some(DefaultTarget)
    case To(p) => Some(p)
    case ByCommittee(f) => f(row)
  }

  /** The lookup found the code: no error and a row. */
  predicate Found(o: LookupOutcome)
  {
    o.Answered? && o.data.Some? && !o.failed
  }

  /** `handleSubmit` on the form state `before`. */
  function HandleSubmit(before: LoginState, props: Props, storage: Browser.Storage,
                        lookup: string -> LookupOutcome): (r: Submitted)
    // Only the trimmed code is ever looked up, and only when it is non-empty.
    ensures r.queried.Some? <==> Trim(before.code) != []
    ensures r.queried.Some? ==> r.queried.value == Trim(before.code)
    // A blank code: a message, nothing else happens, loading untouched.
    ensures Trim(before.code) == [] ==>
              r == Submitted(before.(error := Some(EnterCodeMessage)), None, [])
    // Every path that reaches the lookup ends with loading off.
    ensures r.queried.Some? ==> !r.state.loading
    // An error from the registry, or no row: invalid, no storage, no navigation.
    ensures r.queried.Some? && !Found(lookup(r.queried.value)) ==>
              && r.effects == []
              && r.state.error == Some(if lookup(r.queried.value).LookupThrew? then UnexpectedMessage else InvalidCodeMessage)
    // A found code that cannot be stored: nothing happens but the error.
    ensures r.queried.Some? && Found(lookup(r.queried.value)) && !storage.available ==>
              r.effects == [] && r.state.error == Some(UnexpectedMessage)
    // Otherwise the trimmed code is stored under the configured key first ...
    ensures r.queried.Some? && Found(lookup(r.queried.value)) && storage.available ==>
              |r.effects| >= 1 && r.effects[0] == Browser.Stored(props.storageKey, Trim(before.code))
    // ... and then the target is pushed, unless the redirect function throws.
    ensures r.queried.Some? && Found(lookup(r.queried.value)) && storage.available ==>
              var target := Target(props.redirect, lookup(r.queried.value).data.value);
              && (target.Some? ==> r.effects[1..] == [Browser.Pushed(target.value)] && r.state.error.None?)
              && (target.None? ==> r.effects[1..] == [] && r.state.error == Some(UnexpectedMessage))
    // The typed code itself is never changed.
    ensures r.state.code == before.code
  {
    var trimmed := Trim(before.code);
    if trimmed == [] then
      Submitted(before.(error := Some(EnterCodeMessage)), None, [])
    else
      Settle(before.code, trimmed, lookup(trimmed), props, storage)
  }

  /** The part of `handleSubmit` after the lookup of `trimmed` answered `outcome`. */
  function Settle(code: string, trimmed: string, outcome: LookupOutcome, props: Props,
                  storage: Browser.Storage): (r: Submitted)
    ensures r.queried == Some(trimmed) && !r.state.loading && r.state.code == code
    ensures !Found(outcome) ==>
              && r.effects == []
              && r.state.error == Some(if outcome.LookupThrew? then UnexpectedMessage else InvalidCodeMessage)
    ensures Found(outcome) && !storage.available ==>
              r.effects == [] && r.state.error == Some(UnexpectedMessage)
    ensures Found(outcome) && storage.available ==>
              var target := Target(props.redirect, outcome.data.value);
              && |r.effects| >= 1 && r.effects[0] == Browser.Stored(props.storageKey, trimmed)
              && (target.Some? ==> r.effects[1..] == [Browser.Pushed(target.value)] && r.state.error.None?)
              && (target.None? ==> r.effects[1..] == [] && r.state.error == Some(UnexpectedMessage))
  {
    var done := LoginState(code, false, None);
    match outcome
    case LookupThrew => Submitted(done.(error := Some(UnexpectedMessage)), Some(trimmed), [])
    case Answered(data, failed) =>
      if failed || data.None? then
        Submitted(done.(error := Some(InvalidCodeMessage)), Some(trimmed), [])
      else if !storage.available then
        Submitted(done.(error := Some(UnexpectedMessage)), Some(trimmed), [])
      else
        var stored := Browser.Stored(props.storageKey, trimmed);
        match Target(props.redirect, data.value)
        case None => Submitted(done.(error := Some(UnexpectedMessage)), Some(trimmed), [stored])
        case Some(t) => Submitted(done, Some(trimmed), [stored, Browser.Pushed(t)])
  }

  /** Whatever is typed around a code, a successful login with the default
      props stores exactly the code and lands on `/committee`. */
  lemma LoginStoresTrimmedCode(before: LoginState, storage: Browser.Storage, lookup: string -> LookupOutcome,
                               pad: string, code: string)
    requires AllWhite(pad) && code != [] && !IsWhite(code[0]) && !IsWhite(code[|code| - 1])
    requires before.code == pad + code + pad
    requires storage.available && lookup(code).Answered? && lookup(code).data.Some? && !lookup(code).failed
    ensures HandleSubmit(before, DefaultProps, storage, lookup).effects
            == [Browser.Stored(Browser.CommitteeKey, code), Browser.Pushed(DefaultTarget)]
    ensures Browser.Apply(storage, HandleSubmit(before, DefaultProps, storage, lookup).effects).items
            == storage.items[Browser.CommitteeKey := code]
  {
    assert Trim(before.code) == code by {
      TrimPadded(pad, code, pad);
    }
    var effects := HandleSubmit(before, DefaultProps, storage, lookup).effects;
    assert effects == [Browser.Stored(Browser.CommitteeKey, code), Browser.Pushed(DefaultTarget)];
    ApplyStoreThenNavigate(storage, Browser.CommitteeKey, code, DefaultTarget);
  }

  /** Storing then navigating leaves exactly the stored item behind. */
  lemma ApplyStoreThenNavigate(storage: Browser.Storage, key: string, value: string, path: string)
    ensures Browser.Apply(storage, [Browser.Stored(key, value), Browser.Pushed(path)]).items
            == storage.items[key := value]
  {
    var effects := [Browser.Stored(key, value), Browser.Pushed(path)];
    var next := storage.(items := storage.items[key := value]);
    assert effects[1..] == [Browser.Pushed(path)];
    assert Browser.Apply(next, [Browser.Pushed(path)]) == Browser.Apply(next, []) by {
      assert [Browser.Pushed(path)][1..] == [];
    }
    assert Browser.Apply(storage, effects) == Browser.Apply(next, effects[1..]);
  }
}

=== FILE: committeepage.dfy ===
/**
 The committee page's `onSubmit`: checks the form, reads a resolution file
 as a `data:` URL, builds the JSON payload, posts it to the endpoint for
 its type and turns the answer into the page's message or error.

 The file reader and the server are parameters: `reader` is what
 `FileReader.readAsDataURL` delivered for the file, `server` is what
 `fetch` returned for the request.
 */
module CommitteePage {
  import opened Common
  import Js
  import Http
  import DataUrl
  import Browser

  /** A selected file; its size is the number of its octets. */
  datatype File = File(name: string, mediaType: string, content: seq<byte>)

  /** The submitted form, one variant per page type. For a resolution each
      field is what `formData.get` returned (`None` for `null`); for an
      amendment it is `Object.fromEntries(formData.entries())`. */
  datatype Form =
    | ResolutionForm(title: Option<string>, sponsor: Option<string>, cosponsors: Option<string>, file: Option<File>)
    | AmendmentForm(entries: map<string, string>)

  datatype ReadOutcome = Loaded(dataUrl: string) | ReadFailed

  /** A POST with a JSON body, seen as the server parses it. */
  datatype Request = Request(endpoint: string, body: map<string, Js.Value>)

  /** What `fetch` gave back: a rejection with its message, or a response
      with its status, its text and that text parsed as JSON. */
  datatype Reply = Threw(message: string) | Answered(status: int, text: string, json: Js.Body)

  datatype PageState = PageState(loading: bool, message: Option<string>, error: Option<string>, fileName: Option<string>)

  /** The page after a submission, the request it made, and whether the form was reset. */
  datatype Outcome = Outcome(state: PageState, sent: Option<Request>, formReset: bool)

  const MaxFileSize: int := 10 * 1024 * 1024
  const ProxyEndpoint: string := "/api/make-proxy"
  const SubmitEndpoint: string := "/api/submit"
  const FillAllMessage: string := "Please fill in all fields and select a file."
  const TooLargeMessage: string := "File is too large. Maximum size is 10MB."
  const ReadFailedMessage: string := "Failed to read file"
  const FillFieldsMessage: string := "Please fill in all fields."
  const ResolutionDone: string := "Resolution submitted ✔️"
  const AmendmentDone: string := "Amendment submitted ✔️"

  /** The committee code read at mount: the stored value, or `null` when it
      is missing or storage throws. */
  function MountedCode(storage: Browser.Storage): (r: Option<string>)
    ensures r.Some? <==> storage.available && Browser.CommitteeKey in storage.items
    ensures r.Some? ==> r.value == storage.items[Browser.CommitteeKey]
  {
    match Browser.GetItem(storage, Browser.CommitteeKey)
    case None => None
    case Some(v) => v
  }

  predicate Filled(v: Option<string>)
  {
    v.Some? && v.value != ""
  }

  /** The resolution payload as the proxy receives it: `undefined` members
      (empty cosponsors, an empty or missing committee code, a data URL
      without a comma) do not arrive. */
  function ResolutionBody(title: string, sponsor: string, cosponsors: Option<string>,
                          file: File, dataUrl: string, code: Option<string>): (r: map<string, Js.Value>)
    ensures Js.Get(r, "title") == Js.Str(title) && Js.Get(r, "sponsor") == Js.Str(sponsor)
    ensures Js.Get(r, "fileName") == Js.Str(file.name) && Js.Get(r, "type") == Js.Str("resolution")
    ensures "cosponsors" in r <==> Filled(cosponsors)
    ensures Filled(cosponsors) ==> r["cosponsors"] == Js.Str(cosponsors.value)
    ensures "committeeCode" in r <==> Filled(code)
    ensures Filled(code) ==> r["committeeCode"] == Js.Str(code.value)
    ensures "data_base64" in r <==> DataUrl.AfterFirstComma(dataUrl).Some?
    ensures "data_base64" in r ==> r["data_base64"] == Js.Str(DataUrl.AfterFirstComma(dataUrl).value)
    ensures forall k :: k in r ==> k in ResolutionKeys
  {
    Js.Transmit(map[
      "fileName" := Js.Str(file.name),
      "data_base64" := (match DataUrl.AfterFirstComma(dataUrl) case Some(b) => Js.Str(b) case None => Js.Undefined),
      "title" := Js.Str(title),
      "sponsor" := Js.Str(sponsor),
      "cosponsors" := (if Filled(cosponsors) then Js.Str(cosponsors.value) else Js.Undefined),
      "committeeCode" := (if Filled(code) then Js.Str(code.value) else Js.Undefined),
      "type" := Js.Str("resolution")])
  }

  const ResolutionKeys: set<string> :=
    {"fileName", "data_base64", "title", "sponsor", "cosponsors", "committeeCode", "type"}

  /** `{ type, committeeCode, ...payload }` as the intake receives it: every
      form entry as given, and the type and the stored committee code (`null`
      when there is none) unless an entry of the same name overrides them. */
  function AmendmentBody(entries: map<string, string>, code: Option<string>): (r: map<string, Js.Value>)
    ensures forall k :: k in entries ==> k in r && r[k] == Js.Str(entries[k])
    ensures "type" !in entries ==> Js.Get(r, "type") == Js.Str("amendment")
    ensures "committeeCode" !in entries ==>
              Js.Get(r, "committeeCode") == (if code.Some? then Js.Str(code.value) else Js.Null)
    ensures forall k :: k in r ==> k in entries || k == "type" || k == "committeeCode"
  {
    Js.Transmit(map["type" := Js.Str("amendment"),
                    "committeeCode" := (if code.Some? then Js.Str(code.value) else Js.Null)]
                + map k | k in entries :: Js.Str(entries[k]))
  }

  /** The request the page sends, or the message of the error it throws
      before sending anything. */
  function BuildRequest(form: Form, code: Option<string>, reader: File -> ReadOutcome): (r: Result<Request, string>)
    // A resolution goes only to the proxy, an amendment only to the intake.
    ensures r.Ok? && form.ResolutionForm? ==> r.value.endpoint == ProxyEndpoint
    ensures r.Ok? && form.AmendmentForm? ==> r.value.endpoint == SubmitEndpoint
    // A resolution needs a title, a sponsor and a non-empty file.
    ensures form.ResolutionForm?
            && !(Filled(form.title) && Filled(form.sponsor) && form.file.Some? && |form.file.value.content| > 0)
            ==> r == Err(FillAllMessage)
    // Then at most 10 MiB.
    ensures form.ResolutionForm? && Filled(form.title) && Filled(form.sponsor) && form.file.Some?
            && |form.file.value.content| > 0
            ==> (r == Err(TooLargeMessage) <==> |form.file.value.content| > MaxFileSize)
    // Then the file must be readable.
    ensures form.ResolutionForm? && Filled(form.title) && Filled(form.sponsor) && form.file.Some?
            && 0 < |form.file.value.content| <= MaxFileSize
            ==> (r.Ok? <==> reader(form.file.value).Loaded?)
    // The resolution body is built from the form, the stored code and the file as read.
    ensures r.Ok? && form.ResolutionForm? ==>
              && reader(form.file.value).Loaded?
              && r.value.body == ResolutionBody(form.title.value, form.sponsor.value, form.cosponsors,
                                                form.file.value, reader(form.file.value).dataUrl, code)
    // An amendment needs a resolution number and content.
    ensures form.AmendmentForm? ==>
              (r.Ok? <==> "resolutionNumber" in form.entries && form.entries["resolutionNumber"] != ""
                          && "content" in form.entries && form.entries["content"] != "")
    ensures form.AmendmentForm? && r.Err? ==> r.error == FillFieldsMessage
    ensures r.Ok? && form.AmendmentForm? ==> r.value.body == AmendmentBody(form.entries, code)
  {
    match form
    case ResolutionForm(title, sponsor, cosponsors, file) =>
      if !Filled(title) || !Filled(sponsor) || file.None? || |file.value.content| == 0 then
        Err(FillAllMessage)
      else if |file.value.content| > MaxFileSize then
        Err(TooLargeMessage)
      else
        (match reader(file.value)
         case ReadFailed => Err(ReadFailedMessage)
         case Loaded(url) =>
           Ok(Request(ProxyEndpoint, ResolutionBody(title.value, sponsor.value, cosponsors, file.value, url, code))))
    case AmendmentForm(entries) =>
      if "resolutionNumber" !in entries || entries["resolutionNumber"] == ""
         || "content" !in entries || entries["content"] == "" then
        Err(FillFieldsMessage)
      else
        Ok(Request(SubmitEndpoint, AmendmentBody(entries, code)))
  }

  /** The error text for a failed response: the JSON body's `detail`, else
      its `error`, else the raw text, else a fixed fallback. */
  function FailureMessage(text: string, json: Js.Body): (r: string)
    ensures r != ""
    ensures json.Object? && Js.Truthy(Js.Get(json.fields, "detail"))
            ==> r == Js.ToString(Js.Get(json.fields, "detail"))
    ensures json.Object? && !Js.Truthy(Js.Get(json.fields, "detail")) && Js.Truthy(Js.Get(json.fields, "error"))
            ==> r == Js.ToString(Js.Get(json.fields, "error"))
    ensures (!json.Object? || (!Js.Truthy(Js.Get(json.fields, "detail")) && !Js.Truthy(Js.Get(json.fields, "error"))))
            ==> r == (if text != "" then text else "Submission failed")
  {
    var t := match json
      case Object(fields) => Js.Or(Js.Or(Js.Get(fields, "detail"), Js.Get(fields, "error")), Js.Str(text))
      case _ => Js.Str(text);
    Js.ToString(Js.Or(t, Js.Str("Submission failed")))
  }

  /** `onSubmit`, from the page state before it to the page state after the
      request has settled. */
  function OnSubmit(before: PageState, code: Option<string>, form: Form,
                    reader: File -> ReadOutcome, server: Request -> Reply): (r: Outcome)
    // Loading is over afterwards, whatever happened.
    ensures !r.state.loading
    // Exactly one of message and error is set: the other was cleared at the start.
    ensures r.state.message.Some? != r.state.error.Some?
    // Success: a type-specific message, the form and the file name reset.
    ensures r.state.message.Some? ==>
              && r.sent.Some? && r.formReset && r.state.fileName.None?
              && server(r.sent.value).Answered? && Http.IsOk(server(r.sent.value).status)
              && r.state.message.value == (if form.ResolutionForm? then ResolutionDone else AmendmentDone)
    // Failure: only the error is set; the form and the file name are kept.
    ensures r.state.error.Some? ==> !r.formReset && r.state.fileName == before.fileName
    // A refused form sends nothing and shows why.
    ensures BuildRequest(form, code, reader).Err? ==>
              r.sent.None? && r.state.error == Some(BuildRequest(form, code, reader).error)
    // An accepted form is sent exactly as built, once.
    ensures BuildRequest(form, code, reader).Ok? ==> r.sent == Some(BuildRequest(form, code, reader).value)
    // A 2xx answer is a success: the type's message, the form and the file name reset.
    ensures r.sent.Some? && server(r.sent.value).Answered? && Http.IsOk(server(r.sent.value).status) ==>
              && r.state.message == Some(if form.ResolutionForm? then ResolutionDone else AmendmentDone)
              && r.state.error.None? && r.formReset && r.state.fileName.None?
    // A rejected fetch shows the rejection's message, or the fallback for an empty one.
    ensures r.sent.Some? && server(r.sent.value).Threw? ==>
              r.state.error == Some(if server(r.sent.value).message != "" then server(r.sent.value).message
                                    else "Something went wrong")
    // A non-2xx answer shows the message extracted from the body.
    ensures r.sent.Some? && server(r.sent.value).Answered? && !Http.IsOk(server(r.sent.value).status) ==>
              r.state.error == Some(FailureMessage(server(r.sent.value).text, server(r.sent.value).json))
  {
    match BuildRequest(form, code, reader)
    case Err(m) =>
      Outcome(PageState(false, None, Some(if m != "" then m else "Something went wrong"), before.fileName), None, false)
    case Ok(request) =>
      match server(request)
      case Threw(m) =>
        Outcome(PageState(false, None, Some(if m != "" then m else "Something went wrong"), before.fileName),
                Some(request), false)
      case Answered(status, text, json) =>
        if !Http.IsOk(status) then
          Outcome(PageState(false, None, Some(FailureMessage(text, json)), before.fileName), Some(request), false)
        else
          Outcome(PageState(false, Some(if form.ResolutionForm? then ResolutionDone else AmendmentDone), None, None),
                  Some(request), true)
  }
}

=== FILE: common.dfy ===
/**
 Small vocabulary shared by every module of the model: optional values,
 results, bytes and a few facts about sequences.
 */
module Common {

  /** A value that may be missing (JavaScript's `undefined`/`null` at a typed boundary). */
  datatype Option<+T> = None | Some(value: T)

  /** Either a value or an error. */
  datatype Result<+T, +E> = Ok(value: T) | Err(error: E)

  /** One octet, as held by a Node `Buffer` or a browser `File`. */
  newtype byte = x: int | 0 <= x < 256

  /** `s` ends with `suffix` (JavaScript `String.prototype.endsWith`). */
  predicate EndsWith<T(==)>(s: seq<T>, suffix: seq<T>)
  {
    |suffix| <= |s| && s[|s| - |suffix|..] == suffix
  }

  /** `s` starts with `prefix` (JavaScript `String.prototype.startsWith`). */
  predicate StartsWith<T(==)>(s: seq<T>, prefix: seq<T>)
  {
    prefix <= s
  }

  /** ASCII upper-case letters map to lower case; every other character is kept. */
  function LowerChar(c: char): (r: char)
    ensures 'A' <= c <= 'Z' ==> r as int == c as int + 32
    ensures !('A' <= c <= 'Z') ==> r == c
  {
    if 'A' <= c <= 'Z' then (c as int + 32) as char else c
  }

  /** Character-wise lower casing (the ASCII part of `String.prototype.toLowerCase`). */
  function Lower(s: string): (r: string)
    ensures |r| == |s|
    ensures forall i :: 0 <= i < |s| ==> r[i] == LowerChar(s[i])
  {
    seq(|s|, i requires 0 <= i < |s| => LowerChar(s[i]))
  }

  /** The concatenation of a list of chunks, in order (Node's `Buffer.concat`). */
  function Concat<T>(chunks: seq<seq<T>>): seq<T>
  {
    if |chunks| == 0 then [] else chunks[0] + Concat(chunks[1..])
  }

  lemma {:induction false} ConcatAppend<T>(a: seq<seq<T>>, b: seq<seq<T>>)
    ensures Concat(a + b) == Concat(a) + Concat(b)
  {
    if |a| == 0 {
      assert a + b == b;
    } else {
      assert (a + b)[1..] == a[1..] + b;
      ConcatAppend(a[1..], b);
    }
  }

  lemma Concat3<T>(a: seq<T>, b: seq<T>, c: seq<T>)
    ensures Concat([a, b, c]) == a + b + c
  {
    assert [c][1..] == [];
    assert Concat([c]) == c;
    assert [b, c][1..] == [c];
    assert Concat([b, c]) == b + c;
    assert [a, b, c][1..] == [b, c];
  }

  lemma Concat5<T>(a: seq<T>, b: seq<T>, c: seq<T>, d: seq<T>, e: seq<T>)
    ensures Concat([a, b, c, d, e]) == a + b + c + d + e
  {
    Concat3(c, d, e);
    assert [b, c, d, e][1..] == [c, d, e];
    assert Concat([b, c, d, e]) == b + (c + d + e);
    assert [a, b, c, d, e][1..] == [b, c, d, e];
  }
}

=== FILE: dataurl.dfy ===
/**
 The `data:` URL a `FileReader` produces for a file (section 3 of RFC 2397,
 base64 form), and JavaScript's `String.prototype.split` on one separator
 character, which the committee page uses to cut the base64 text out of it.
 */
module DataUrl {
  import opened Common
  import Base64

  /** `"data:" + type + ";base64," + base64(bytes)`, where a file without a
      declared type is reported as `application/octet-stream`. */
  function Make(mediaType: string, content: seq<byte>): string
  {
    "data:" + (if mediaType == "" then "application/octet-stream" else mediaType)
    + ";base64," + Base64.Encode(content)
  }

  /** `s.split(sep)`: the pieces between separators, in order. */
  function Split(s: string, sep: char): (r: seq<string>)
    ensures |r| >= 1
    ensures forall i, j :: 0 <= i < |r| && 0 <= j < |r[i]| ==> r[i][j] != sep
  {
    if |s| == 0 then [""]
    else if s[0] == sep then [""] + Split(s[1..], sep)
    else
      var rest := Split(s[1..], sep);
      [[s[0]] + rest[0]] + rest[1..]
  }

  /** `pieces.join(sep)`. */
  function Join(pieces: seq<string>, sep: char): string
    requires |pieces| >= 1
  {
    if |pieces| == 1 then pieces[0] else pieces[0] + [sep] + Join(pieces[1..], sep)
  }

  /** Splitting loses nothing: joining the pieces back gives the string. */
  lemma {:induction false} JoinSplit(s: string, sep: char)
    ensures Join(Split(s, sep), sep) == s
  {
    if |s| > 0 {
      var rest := Split(s[1..], sep);
      JoinSplit(s[1..], sep);
      if s[0] == sep {
        assert Split(s, sep)[1..] == rest;
        assert s == [sep] + s[1..];
      } else {
        var r := Split(s, sep);
        assert r[0] == [s[0]] + rest[0];
        if |rest| == 1 {
          assert s == [s[0]] + rest[0];
        } else {
          assert r[1..] == rest[1..];
          assert Join(rest, sep) == rest[0] + [sep] + Join(rest[1..], sep);
          assert s == [s[0]] + s[1..];
        }
      }
    }
  }

  /** A string without the separator is one piece. */
  lemma {:induction false} SplitNoSeparator(s: string, sep: char)
    requires forall i :: 0 <= i < |s| ==> s[i] != sep
    ensures Split(s, sep) == [s]
  {
    if |s| > 0 {
      SplitNoSeparator(s[1..], sep);
      assert s == [s[0]] + s[1..];
    }
  }

  /** A separator-free head becomes the first piece; the rest splits on its own. */
  lemma {:induction false} SplitAfterHead(a: string, sep: char, b: string)
    requires forall i :: 0 <= i < |a| ==> a[i] != sep
    ensures Split(a + [sep] + b, sep) == [a] + Split(b, sep)
  {
    var s := a + [sep] + b;
    if |a| == 0 {
      assert s == [sep] + b;
      assert s[1..] == b;
    } else {
      assert s[0] == a[0];
      assert s[1..] == a[1..] + [sep] + b;
      SplitAfterHead(a[1..], sep, b);
      assert a == [a[0]] + a[1..];
    }
  }

  /** `s.split(",")[1]`: the text between the first and the second comma,
      or `undefined` when there is no comma at all. */
  function AfterFirstComma(s: string): (r: Option<string>)
    ensures r.None? <==> forall i :: 0 <= i < |s| ==> s[i] != ','
    ensures r.Some? ==> forall j :: 0 <= j < |r.value| ==> r.value[j] != ','
  {
    var pieces := Split(s, ',');
    SplitCount(s, ',');
    if |pieces| >= 2 then Some(pieces[1]) else None
  }

  /** There is more than one piece exactly when the separator occurs. */
  lemma {:induction false} SplitCount(s: string, sep: char)
    ensures |Split(s, sep)| == 1 <==> forall i :: 0 <= i < |s| ==> s[i] != sep
  {
    if |s| > 0 {
      SplitCount(s[1..], sep);
      assert forall i :: 1 <= i < |s| ==> s[i] == s[1..][i - 1];
    }
  }

  /** For a media type without a comma, the page's cut returns exactly the
      base64 text of the file. */
  lemma PayloadOfDataUrl(mediaType: string, content: seq<byte>)
    requires forall i :: 0 <= i < |mediaType| ==> mediaType[i] != ','
    ensures AfterFirstComma(Make(mediaType, content)) == Some(Base64.Encode(content))
  {
    var t := if mediaType == "" then "application/octet-stream" else mediaType;
    var head := "data:" + t + ";base64";
    var b := Base64.Encode(content);
    assert forall i :: 0 <= i < |head| ==> head[i] != ',';
    assert Make(mediaType, content) == head + [','] + b;
    SplitAfterHead(head, ',', b);
    SplitNoSeparator(b, ',');
  }
}

=== FILE: http.dfy ===
/**
 The JSON responses the two route handlers return through `NextResponse.json`.
 */
module Http {

  /** What a handler's `catch (err)` clause caught. The handler answers 500
      with `{ error: String(err) }`; the runtime's wording of that text is
      not part of the model, only which failure it reports. */
  datatype Thrown =
    | BodyNotJson             // `await req.json()` rejected
    | FieldOfNull             // a field read on a body that parsed to `null`
    | NotAString(field: string)  // `Buffer.from` or `.toLowerCase()` on a non-string
    | NetworkFailure          // the outbound `fetch` rejected
    | ClientFailure           // the datastore client threw
    | NullBodyStatus(status: int)  // a JSON response built with a status that carries no body

  /** The JSON object sent back. */
  datatype Payload =
    | Error(error: string)                    // { error }
    | Unexpected(cause: Thrown)               // { error: String(err) }
    | Forwarded(zapierWebhookStatus: int)     // { ok: true, zapierWebhookStatus }
    | Submitted(message: string)              // { ok: true, message }

  datatype Response = Response(status: int, payload: Payload)

  /** `Response.ok`: a 2xx status. */
  predicate IsOk(status: int)
  {
    200 <= status <= 299
  }

  /** The null-body statuses of the Fetch standard: a response with one of
      these statuses cannot have a body, so building a JSON response with it
      throws a `TypeError`. A `fetch` response never carries 101 or 103; they
      are listed for completeness. */
  predicate IsNullBodyStatus(status: int)
  {
    status == 101 || status == 103 || status == 204 || status == 205 || status == 304
  }

  /** The statuses a `fetch` response can carry. */
  type FetchStatus = x: int | 200 <= x <= 599 witness 200
}

=== FILE: js.dfy ===
/**
 The slice of JavaScript value semantics the handlers rely on: JSON field
 values, truthiness (`!x`, `x || y`), string coercion (`String(x)`,
 `` `${x}` ``, `x + "..."`), nullish coalescing (`??`) and the way
 `JSON.stringify` drops `undefined` members.
 */
module Js {
  import opened Common

  /** A field value read from a parsed JSON body, or `undefined` when absent.
      Numbers, arrays and nested objects are not part of the model. */
  datatype Value = Undefined | Null | Bool(b: bool) | Str(s: string)

  /** A request body after `await req.json()`: unparseable, the literal `null`,
      or anything else, seen through its own enumerable fields. */
  datatype Body = NotJson | JsonNull | Object(fields: map<string, Value>)

  /** JavaScript truthiness restricted to `Value`. */
  predicate Truthy(v: Value)
  {
    match v
    case Undefined => false
    case Null => false
    case Bool(b) => b
    case Str(s) => s != ""
  }

  /** `String(v)`, which is also what template literals and `+ "..."` produce. */
  function ToString(v: Value): (r: string)
    ensures v.Str? ==> r == v.s
    ensures v.Undefined? ==> r == "undefined"
    ensures v.Null? ==> r == "null"
    ensures Truthy(v) ==> r != ""
  {
    match v
    case Undefined => "undefined"
    case Null => "null"
    case Bool(b) => if b then "true" else "false"
    case Str(s) => s
  }

  /** `a || b`: the first operand when it is truthy, otherwise the second. */
  function Or(a: Value, b: Value): (r: Value)
    ensures Truthy(a) ==> r == a
    ensures !Truthy(a) ==> r == b
  {
    if Truthy(a) then a else b
  }

  /** `a ?? b` for values that are either `undefined` (None) or a string. */
  function Coalesce(a: Option<string>, b: Option<string>): (r: Option<string>)
    ensures a.Some? ==> r == a
    ensures a.None? ==> r == b
  {
    if a.Some? then a else b
  }

  /** `obj.key`: the member's value, `undefined` when there is none. */
  function Get(fields: map<string, Value>, key: string): (r: Value)
    ensures key in fields ==> r == fields[key]
    ensures key !in fields ==> r == Undefined
  {
    if key in fields then fields[key] else Undefined
  }

  /** What the receiving side of `JSON.parse(JSON.stringify(obj))` sees:
      members whose value is `undefined` are omitted, the rest are kept. */
  function Transmit(obj: map<string, Value>): (r: map<string, Value>)
    ensures forall k :: k in r <==> k in obj && obj[k] != Undefined
    ensures forall k :: k in r ==> r[k] == obj[k]
    ensures forall k :: Get(r, k) == Get(obj, k)
  {
    map k | k in obj && obj[k] != Undefined :: obj[k]
  }
}

=== FILE: makeproxy.dfy ===
/**
 `POST /api/make-proxy`: receives `{ data_base64, fileName, title, sponsor,
 cosponsors, committeeCode, type }` as JSON, decodes the file, frames a
 `multipart/form-data` body by hand and forwards it to the automation
 webhook, then maps the webhook's answer to a response.

 The random boundary suffix and the webhook are parameters: `randomHex` is
 what `Math.random().toString(16).slice(2)` produced, and `webhook` answers
 the one outbound request.
 */
module MakeProxy {
  import opened Common
  import Js
  import Base64
  import Multipart
  import MultipartReader
  import Utf8
  import Http

  // ---------------------------------------------------------------- boundary

  const BoundaryPrefix: string := "----WebKitFormBoundary"

  /** `` `----WebKitFormBoundary${randomHex}` ``. */
  function BoundaryOf(randomHex: string): string
  {
    BoundaryPrefix + randomHex
  }

  predicate IsHexDigit(c: char)
  {
    '0' <= c <= '9' || 'a' <= c <= 'f'
  }

  /** `bchars` of section 5.1.1 of RFC 2046. */
  predicate IsBoundaryChar(c: char)
  {
    '0' <= c <= '9' || 'a' <= c <= 'z' || 'A' <= c <= 'Z'
    || c == '\'' || c == '(' || c == ')' || c == '+' || c == '_' || c == ','
    || c == '-' || c == '.' || c == '/' || c == ':' || c == '=' || c == '?' || c == ' '
  }

  /** `boundary := 0*69<bchars> bcharsnospace`. */
  predicate IsValidBoundary(b: string)
  {
    1 <= |b| <= 70
    && (forall i :: 0 <= i < |b| ==> IsBoundaryChar(b[i]))
    && b[|b| - 1] != ' '
  }

  /** A boundary built from at most 48 hex digits is a legal RFC 2046 boundary. */
  lemma GeneratedBoundaryIsValid(randomHex: string)
    requires |randomHex| <= 48
    requires forall i :: 0 <= i < |randomHex| ==> IsHexDigit(randomHex[i])
    ensures IsValidBoundary(BoundaryOf(randomHex))
  {
    var b := BoundaryOf(randomHex);
    forall i | 0 <= i < |b| ensures IsBoundaryChar(b[i]) {
      if i >= |BoundaryPrefix| {
        assert b[i] == randomHex[i - |BoundaryPrefix|];
      }
    }
  }

  // ---------------------------------------------------------------- media type

  const PdfType: string := "application/pdf"
  const DocxType: string := "application/vnd.openxmlformats-officedocument.wordprocessingml.document"
  const DocType: string := "application/msword"

  /** `s` ends with `suffix` once both are lower-cased character by character. */
  predicate EndsWithIgnoringCase(s: string, suffix: string)
  {
    |suffix| <= |s|
    && forall i :: 0 <= i < |suffix| ==> LowerChar(s[|s| - |suffix| + i]) == LowerChar(suffix[i])
  }

  /** The media type chosen from the file name: `.pdf`, then `.docx`, in any
      letter case, and the legacy Word type for everything else. */
  function MediaTypeFor(fileName: string): (r: string)
    ensures r == PdfType <==> EndsWithIgnoringCase(fileName, ".pdf")
    ensures r == DocxType <==> !EndsWithIgnoringCase(fileName, ".pdf") && EndsWithIgnoringCase(fileName, ".docx")
    ensures r == DocType <==> !EndsWithIgnoringCase(fileName, ".pdf") && !EndsWithIgnoringCase(fileName, ".docx")
  {
    var lower := Lower(fileName);
    LowerSuffix(fileName, ".pdf");
    LowerSuffix(fileName, ".docx");
    if EndsWith(lower, ".pdf") then PdfType
    else if EndsWith(lower, ".docx") then DocxType
    else DocType
  }

  lemma LowerSuffix(s: string, suffix: string)
    requires Lower(suffix) == suffix
    ensures EndsWith(Lower(s), suffix) <==> EndsWithIgnoringCase(s, suffix)
  {
    var l := Lower(s);
    if |suffix| <= |s| {
      if EndsWithIgnoringCase(s, suffix) {
        assert forall i :: 0 <= i < |suffix| ==> l[|s| - |suffix|..][i] == suffix[i];
      }
      if EndsWith(l, suffix) {
        forall i | 0 <= i < |suffix|
          ensures LowerChar(s[|s| - |suffix| + i]) == LowerChar(suffix[i])
        {
          assert l[|s| - |suffix|..][i] == suffix[i];
          assert LowerChar(suffix[i]) == Lower(suffix)[i];
        }
      }
    }
  }

  /** File names that differ only in letter case get the same media type. */
  lemma MediaTypeIgnoresCase(a: string, b: string)
    requires |a| == |b|
    requires forall i :: 0 <= i < |a| ==> LowerChar(a[i]) == LowerChar(b[i])
    ensures MediaTypeFor(a) == MediaTypeFor(b)
  {
    assert EndsWithIgnoringCase(a, ".pdf") <==> EndsWithIgnoringCase(b, ".pdf");
    assert EndsWithIgnoringCase(a, ".docx") <==> EndsWithIgnoringCase(b, ".docx");
  }

  // ---------------------------------------------------------------- request

  /** The text fields, in the order of the handler's object literal. */
  const TextFieldNames: seq<string> := ["title", "sponsor", "cosponsors", "committeeCode", "type"]

  /** Each text field's value as `value + '\r\n'` coerces it: a missing
      field becomes the text `undefined`. */
  function TextFields(fields: map<string, Js.Value>): (r: seq<Multipart.Field>)
    ensures |r| == |TextFieldNames|
    ensures forall i :: 0 <= i < |r| ==> r[i].name == TextFieldNames[i]
  {
    seq(|TextFieldNames|, i requires 0 <= i < |TextFieldNames| =>
      Multipart.Field(TextFieldNames[i], Js.ToString(Js.Get(fields, TextFieldNames[i]))))
  }

  /** The outbound webhook request. The value of the API-key header is a
      configuration literal and is left out; only its presence is kept. */
  datatype Outbound = Outbound(contentType: string, sendsApiKey: bool, body: seq<byte>)

  /** What the webhook did with the request. */
  datatype WebhookReply = Replied(status: Http.FetchStatus, text: string) | Unreachable

  /** The handler's answer and the request it sent, if it sent one. */
  datatype Exchange = Exchange(response: Http.Response, sent: Option<Outbound>)

  const EmptyFileMessage: string := "File content is empty after base64 decoding."
  const ContentTypePrefix: string := "multipart/form-data; boundary="

  /** Everything up to the `fetch`: decode, empty check, media type, framing
      and headers; or the response that ends the request before it. */
  function Prepare(request: Js.Body, randomHex: string, makeApiKey: Option<string>): Result<Outbound, Http.Response>
  {
    match request
    case NotJson => Err(Http.Response(500, Http.Unexpected(Http.BodyNotJson)))
    case JsonNull => Err(Http.Response(500, Http.Unexpected(Http.FieldOfNull)))
    case Object(fields) =>
      var encoded, name := Js.Get(fields, "data_base64"), Js.Get(fields, "fileName");
      if !encoded.Str? then
        Err(Http.Response(500, Http.Unexpected(Http.NotAString("data_base64"))))
      else if |Base64.Decode(encoded.s)| == 0 then
        Err(Http.Response(400, Http.Error(EmptyFileMessage)))
      else if !name.Str? then
        Err(Http.Response(500, Http.Unexpected(Http.NotAString("fileName"))))
      else
        var boundary := BoundaryOf(randomHex);
        var upload := Multipart.Upload(name.s, MediaTypeFor(name.s), Base64.Decode(encoded.s));
        Ok(Outbound(ContentTypePrefix + boundary,
                    makeApiKey.Some? && makeApiKey.value != "",
                    Multipart.Body(boundary, TextFields(fields), upload)))
  }

  /** `POST /api/make-proxy`. */
  function Handle(request: Js.Body, randomHex: string, makeApiKey: Option<string>,
                  webhook: Outbound -> WebhookReply): (r: Exchange)
    // The request is forwarded exactly when the body is an object whose
    // base64 decodes to at least one byte and whose file name is a string.
    ensures r.sent.Some? <==>
              request.Object?
              && Js.Get(request.fields, "data_base64").Str?
              && |Base64.Decode(Js.Get(request.fields, "data_base64").s)| > 0
              && Js.Get(request.fields, "fileName").Str?
    // An empty file is refused with 400 before anything is sent.
    ensures request.Object? && Js.Get(request.fields, "data_base64").Str?
            && Base64.Decode(Js.Get(request.fields, "data_base64").s) == []
            ==> r == Exchange(Http.Response(400, Http.Error(EmptyFileMessage)), None)
    // The outbound request names the body's boundary and carries the
    // API-key header exactly when MAKE_API_KEY is set to a non-empty value.
    ensures r.sent.Some? ==>
              && r.sent.value.contentType == ContentTypePrefix + BoundaryOf(randomHex)
              && (r.sent.value.sendsApiKey <==> makeApiKey.Some? && makeApiKey.value != "")
    // A non-2xx webhook status is passed through with the webhook's text ...
    ensures r.sent.Some? && webhook(r.sent.value).Replied? && !Http.IsOk(webhook(r.sent.value).status)
            && !Http.IsNullBodyStatus(webhook(r.sent.value).status)
            ==> r.response == Http.Response(webhook(r.sent.value).status,
                                            Http.Error("Submission failed: " + webhook(r.sent.value).text))
    // ... except a null-body status (304): the error response cannot be
    // built, and the throw is answered with 500.
    ensures r.sent.Some? && webhook(r.sent.value).Replied? && !Http.IsOk(webhook(r.sent.value).status)
            && Http.IsNullBodyStatus(webhook(r.sent.value).status)
            ==> r.response == Http.Response(500, Http.Unexpected(Http.NullBodyStatus(webhook(r.sent.value).status)))
    // A 2xx webhook status is acknowledged with 200 and reported back.
    ensures r.sent.Some? && webhook(r.sent.value).Replied? && Http.IsOk(webhook(r.sent.value).status)
            ==> r.response == Http.Response(200, Http.Forwarded(webhook(r.sent.value).status))
    // A failed fetch is an unexpected error.
    ensures r.sent.Some? && webhook(r.sent.value).Unreachable?
            ==> r.response == Http.Response(500, Http.Unexpected(Http.NetworkFailure))
    // Without a parseable object body the answer is 500.
    ensures !request.Object? ==> r.response.status == 500 && r.sent.None?
    // A `data_base64` that is not a string makes `Buffer.from` throw: 500.
    ensures request.Object? && !Js.Get(request.fields, "data_base64").Str?
            ==> r == Exchange(Http.Response(500, Http.Unexpected(Http.NotAString("data_base64"))), None)
    // So does a `fileName` that is not a string, once the file is non-empty.
    ensures request.Object? && Js.Get(request.fields, "data_base64").Str?
            && |Base64.Decode(Js.Get(request.fields, "data_base64").s)| > 0
            && !Js.Get(request.fields, "fileName").Str?
            ==> r == Exchange(Http.Response(500, Http.Unexpected(Http.NotAString("fileName"))), None)
  {
    match Prepare(request, randomHex, makeApiKey)
    case Err(response) => Exchange(response, None)
    case Ok(outbound) =>
      match webhook(outbound)
      case Unreachable => Exchange(Http.Response(500, Http.Unexpected(Http.NetworkFailure)), Some(outbound))
      case Replied(status, text) =>
        if !Http.IsOk(status) then
          if Http.IsNullBodyStatus(status) then
            Exchange(Http.Response(500, Http.Unexpected(Http.NullBodyStatus(status))), Some(outbound))
          else
            Exchange(Http.Response(status, Http.Error("Submission failed: " + text)), Some(outbound))
        else
          Exchange(Http.Response(200, Http.Forwarded(status)), Some(outbound))
  }

  /** What a forwarding handler sent: the prepared request for the body's
      file name and decoded file. */
  lemma SentOutbound(request: Js.Body, randomHex: string, makeApiKey: Option<string>,
                     webhook: Outbound -> WebhookReply)
    requires Handle(request, randomHex, makeApiKey, webhook).sent.Some?
    ensures request.Object? && Js.Get(request.fields, "data_base64").Str? && Js.Get(request.fields, "fileName").Str?
    ensures var name := Js.Get(request.fields, "fileName").s;
            var upload := Multipart.Upload(name, MediaTypeFor(name), Base64.Decode(Js.Get(request.fields, "data_base64").s));
            Handle(request, randomHex, makeApiKey, webhook).sent.value
            == Outbound(ContentTypePrefix + BoundaryOf(randomHex), makeApiKey.Some? && makeApiKey.value != "",
                        Multipart.Body(BoundaryOf(randomHex), TextFields(request.fields), upload))
  {
    assert Prepare(request, randomHex, makeApiKey).Ok?;
  }

  /** The boundary named in the `Content-Type` header, if it has that form. */
  function BoundaryParameter(contentType: string): (r: Option<string>)
    ensures r.Some? ==> contentType == ContentTypePrefix + r.value
  {
    if ContentTypePrefix <= contentType then Some(contentType[|ContentTypePrefix|..]) else None
  }

  /** What the webhook receives: the header's boundary is the body's, the
      five text fields come first in their fixed order with missing ones
      written as `undefined`, and the decoded file follows as the last part
      with the media type chosen from its name. */
  lemma ForwardedBody(request: Js.Body, randomHex: string, makeApiKey: Option<string>,
                      webhook: Outbound -> WebhookReply)
    requires Handle(request, randomHex, makeApiKey, webhook).sent.Some?
    ensures var out := Handle(request, randomHex, makeApiKey, webhook).sent.value;
            var fields := request.fields;
            var fileName := Js.Get(fields, "fileName").s;
            var file := Base64.Decode(Js.Get(fields, "data_base64").s);
            var parts := Multipart.FormParts(TextFields(fields), Multipart.Upload(fileName, MediaTypeFor(fileName), file));
            && BoundaryParameter(out.contentType) == Some(BoundaryOf(randomHex))
            && out.body == Multipart.MultipartBody(BoundaryOf(randomHex), parts)
            && |parts| == 6
            && (forall i :: 0 <= i < 5 ==>
                  parts[i].headers == ["Content-Disposition: form-data; name=\"" + TextFieldNames[i] + "\""])
            && (forall i :: 0 <= i < 5 ==>
                  parts[i].content == Utf8.Encode(Js.ToString(Js.Get(fields, TextFieldNames[i]))))
            && (forall i :: 0 <= i < 5 && TextFieldNames[i] !in fields ==>
                  parts[i].content == Utf8.Encode("undefined"))
            && parts[5].content == file
            && parts[5].headers[1] == "Content-Type: " + MediaTypeFor(fileName)
  {
    var fields := request.fields;
    var fileName := Js.Get(fields, "fileName").s;
    var file := Base64.Decode(Js.Get(fields, "data_base64").s);
    var upload := Multipart.Upload(fileName, MediaTypeFor(fileName), file);
    var boundary := BoundaryOf(randomHex);
    SentOutbound(request, randomHex, makeApiKey, webhook);
    Multipart.BodyIsMultipart(boundary, TextFields(fields), upload);
    var ct := ContentTypePrefix + boundary;
    assert ct[|ContentTypePrefix|..] == boundary;
  }

  /** The parts of the forwarded form, as `ForwardedBody` describes them. */
  function SentParts(fields: map<string, Js.Value>): seq<Multipart.BodyPart>
  {
    var fileName := Js.Get(fields, "fileName");
    var encoded := Js.Get(fields, "data_base64");
    var name := if fileName.Str? then fileName.s else "";
    var file := if encoded.Str? then Base64.Decode(encoded.s) else [];
    Multipart.FormParts(TextFields(fields), Multipart.Upload(name, MediaTypeFor(name), file))
  }

  /** A reader of the forwarded body recovers every text field as the route
      wrote it and the decoded file, whenever the boundary's random part is
      hexadecimal and no part contains the delimiter or a header line with a
      carriage return (a file name holding CR could break its header). */
  lemma ForwardedReadsBack(request: Js.Body, randomHex: string, makeApiKey: Option<string>,
                           webhook: Outbound -> WebhookReply)
    requires Handle(request, randomHex, makeApiKey, webhook).sent.Some?
    requires forall i :: 0 <= i < |randomHex| ==> IsHexDigit(randomHex[i])
    requires forall p :: p in SentParts(request.fields) ==> MultipartReader.Separable(BoundaryOf(randomHex), p)
    ensures var read := MultipartReader.Read(BoundaryOf(randomHex), Handle(request, randomHex, makeApiKey, webhook).sent.value.body);
            && read.Some? && |read.value| == 6
            && (forall i :: 0 <= i < 5 ==>
                  read.value[i].content == Utf8.Encode(Js.ToString(Js.Get(request.fields, TextFieldNames[i]))))
            && read.value[5].content == Base64.Decode(Js.Get(request.fields, "data_base64").s)
  {
    SentOutbound(request, randomHex, makeApiKey, webhook);
    var fields := request.fields;
    var name := Js.Get(fields, "fileName").s;
    var upload := Multipart.Upload(name, MediaTypeFor(name), Base64.Decode(Js.Get(fields, "data_base64").s));
    var b := BoundaryOf(randomHex);
    assert SentParts(fields) == Multipart.FormParts(TextFields(fields), upload);
    forall i | 0 <= i < |b| ensures b[i] != '\r' {
      if i >= |BoundaryPrefix| {
        assert b[i] == randomHex[i - |BoundaryPrefix|];
      }
    }
    MultipartReader.FormReadsBack(b, TextFields(fields), upload);
  }

  /** The forwarded body starts with the first boundary line, ends with the
      close delimiter line, and holds the decoded file contiguously just
      before the final CRLF and close delimiter. */
  lemma ForwardedFraming(request: Js.Body, randomHex: string, makeApiKey: Option<string>,
                         webhook: Outbound -> WebhookReply)
    requires Handle(request, randomHex, makeApiKey, webhook).sent.Some?
    ensures var out := Handle(request, randomHex, makeApiKey, webhook).sent.value;
            var file := Base64.Decode(Js.Get(request.fields, "data_base64").s);
            var b := BoundaryOf(randomHex);
            var tail := Multipart.CloseTail(b);
            && StartsWith(out.body, Utf8.Encode("--" + b + "\r\n"))
            && EndsWith(out.body, Utf8.Encode("--" + b + "--\r\n"))
            && |out.body| >= |file| + |tail|
            && out.body[|out.body| - |tail| - |file| .. |out.body| - |tail|] == file
  {
    var fields := request.fields;
    var fileName := Js.Get(fields, "fileName").s;
    var file := Base64.Decode(Js.Get(fields, "data_base64").s);
    SentOutbound(request, randomHex, makeApiKey, webhook);
    Multipart.BodyFraming(BoundaryOf(randomHex), TextFields(fields), Multipart.Upload(fileName, MediaTypeFor(fileName), file));
  }
}

=== FILE: multipart.dfy ===
/**
 The `multipart/form-data` body the resolution proxy frames by hand
 (section 4 of RFC 7578, with the delimiter syntax of section 5.1.1 of
 RFC 2046).

 The handler pushes text and byte chunks into a list and concatenates the
 list: for every text field a dash-boundary line, a `Content-Disposition`
 header and the value followed by CRLF; then the file part; then the close
 delimiter. `Body` is that push-order construction; `MultipartBody` is the
 grammar of RFC 2046 written independently; `BodyIsMultipart` proves they
 produce the same octets.
 */
module Multipart {
  import opened Common
  import Utf8

  const CRLF: string := "\r\n"

  /** A text field, its value already coerced to a string. */
  datatype Field = Field(name: string, value: string)

  /** The uploaded file: its name, its media type and its octets. */
  datatype Upload = Upload(fileName: string, mediaType: string, content: seq<byte>)

  // ------------------------------------------------------- push-order framing

  /** The three chunks pushed for one text field. */
  function FieldChunks(boundary: string, f: Field): seq<seq<byte>>
  {
    [Utf8.Encode("--" + boundary + "\r\n"),
     Utf8.Encode("Content-Disposition: form-data; name=\"" + f.name + "\"\r\n\r\n"),
     Utf8.Encode(f.value + "\r\n")]
  }

  function FieldsChunks(boundary: string, fields: seq<Field>): (r: seq<seq<byte>>)
    ensures |r| == 3 * |fields|
  {
    if |fields| == 0 then [] else FieldChunks(boundary, fields[0]) + FieldsChunks(boundary, fields[1..])
  }

  /** The five chunks pushed for the file: boundary line, two header lines,
      the raw octets and the CRLF that ends them. */
  function UploadChunks(boundary: string, u: Upload): seq<seq<byte>>
  {
    [Utf8.Encode("--" + boundary + "\r\n"),
     Utf8.Encode("Content-Disposition: form-data; name=\"file\"; filename=\"" + u.fileName + "\"\r\n"),
     Utf8.Encode("Content-Type: " + u.mediaType + "\r\n\r\n"),
     u.content,
     Utf8.Encode("\r\n")]
  }

  function CloseChunk(boundary: string): seq<byte>
  {
    Utf8.Encode("--" + boundary + "--\r\n")
  }

  /** What follows the file's octets: the CRLF that ends them and the close
      delimiter line. */
  function CloseTail(boundary: string): seq<byte>
  {
    Utf8.Encode("\r\n--" + boundary + "--\r\n")
  }

  /** Every chunk, in push order. */
  function Chunks(boundary: string, fields: seq<Field>, u: Upload): (r: seq<seq<byte>>)
    ensures |r| == 3 * |fields| + 6
    ensures r[3 * |fields| + 3] == u.content
    ensures r[|r| - 1] == Utf8.Encode("--" + boundary + "--\r\n")
  {
    FieldsChunks(boundary, fields) + UploadChunks(boundary, u) + [CloseChunk(boundary)]
  }

  /** `Buffer.concat(parts)`. */
  function Body(boundary: string, fields: seq<Field>, u: Upload): seq<byte>
  {
    Concat(Chunks(boundary, fields, u))
  }

  // ------------------------------------------------------- RFC 2046 grammar

  /** A body part: header lines (without their CRLF) and the content octets. */
  datatype BodyPart = BodyPart(headers: seq<string>, content: seq<byte>)

  function HeaderLines(headers: seq<string>): string
  {
    if |headers| == 0 then "" else headers[0] + CRLF + HeaderLines(headers[1..])
  }

  /** `body-part := MIME-part-headers [CRLF *OCTET]`: each header line ends in
      CRLF and an empty line separates the headers from the content. */
  function PartOctets(p: BodyPart): seq<byte>
  {
    Utf8.Encode(HeaderLines(p.headers) + CRLF) + p.content
  }

  /** `dash-boundary := "--" boundary`. */
  function DashBoundary(boundary: string): seq<byte>
  {
    Utf8.Encode("--" + boundary)
  }

  /** `delimiter := CRLF dash-boundary`. */
  function Delimiter(boundary: string): seq<byte>
  {
    Utf8.Encode(CRLF) + DashBoundary(boundary)
  }

  /** `*encapsulation`, each being `delimiter transport-padding CRLF body-part`
      (with no transport padding). */
  function Encapsulations(boundary: string, parts: seq<BodyPart>): seq<byte>
  {
    if |parts| == 0 then []
    else Delimiter(boundary) + Utf8.Encode(CRLF) + PartOctets(parts[0]) + Encapsulations(boundary, parts[1..])
  }

  /** `multipart-body` without preamble: `dash-boundary CRLF body-part
      *encapsulation close-delimiter`, where `close-delimiter := delimiter "--"`,
      followed by the CRLF that opens an empty epilogue. */
  function MultipartBody(boundary: string, parts: seq<BodyPart>): seq<byte>
    requires |parts| >= 1
  {
    DashBoundary(boundary) + Utf8.Encode(CRLF) + PartOctets(parts[0])
    + Encapsulations(boundary, parts[1..])
    + Delimiter(boundary) + Utf8.Encode("--") + Utf8.Encode(CRLF)
  }

  /** A text field as a form-data part (section 4.2 of RFC 7578). */
  function FieldPart(f: Field): BodyPart
  {
    BodyPart(["Content-Disposition: form-data; name=\"" + f.name + "\""], Utf8.Encode(f.value))
  }

  /** The file as a form-data part with its file name and media type
      (sections 4.2 and 4.4 of RFC 7578). */
  function UploadPart(u: Upload): BodyPart
  {
    BodyPart(["Content-Disposition: form-data; name=\"file\"; filename=\"" + u.fileName + "\"",
              "Content-Type: " + u.mediaType],
             u.content)
  }

  /** The parts of the form: one per text field in order, then the file. */
  function FormParts(fields: seq<Field>, u: Upload): (r: seq<BodyPart>)
    ensures |r| == |fields| + 1
    ensures forall i :: 0 <= i < |fields| ==> r[i] == FieldPart(fields[i])
    ensures r[|fields|] == UploadPart(u)
  {
    seq(|fields|, i requires 0 <= i < |fields| => FieldPart(fields[i])) + [UploadPart(u)]
  }

  // ------------------------------------------------------- equivalence proof

  /** Each part as the handler frames it: dash-boundary CRLF part CRLF. */
  function Framed(boundary: string, parts: seq<BodyPart>): seq<byte>
  {
    if |parts| == 0 then []
    else DashBoundary(boundary) + Utf8.Encode(CRLF) + PartOctets(parts[0]) + Utf8.Encode(CRLF)
         + Framed(boundary, parts[1..])
  }

  lemma DashLine(boundary: string)
    ensures Utf8.Encode("--" + boundary + "\r\n") == DashBoundary(boundary) + Utf8.Encode(CRLF)
  {
    Utf8.EncodeAppend("--" + boundary, CRLF);
  }

  lemma FieldChunksFrame(boundary: string, f: Field)
    ensures Concat(FieldChunks(boundary, f))
         == DashBoundary(boundary) + Utf8.Encode(CRLF) + PartOctets(FieldPart(f)) + Utf8.Encode(CRLF)
  {
    var h := "Content-Disposition: form-data; name=\"" + f.name + "\"";
    var cs := FieldChunks(boundary, f);
    Concat3(cs[0], cs[1], cs[2]);
    DashLine(boundary);
    assert "Content-Disposition: form-data; name=\"" + f.name + "\"\r\n\r\n" == HeaderLines([h]) + CRLF;
    Utf8.EncodeAppend(f.value, CRLF);
  }

  lemma {:induction false} FieldsChunksFrame(boundary: string, fields: seq<Field>)
    ensures Concat(FieldsChunks(boundary, fields)) == Framed(boundary, FormParts(fields, Upload("", "", []))[..|fields|])
  {
    var parts := FormParts(fields, Upload("", "", []))[..|fields|];
    if |fields| > 0 {
      FieldsChunksFrame(boundary, fields[1..]);
      ConcatAppend(FieldChunks(boundary, fields[0]), FieldsChunks(boundary, fields[1..]));
      FieldChunksFrame(boundary, fields[0]);
      assert parts[0] == FieldPart(fields[0]);
      assert parts[1..] == FormParts(fields[1..], Upload("", "", []))[..|fields| - 1];
    }
  }

  /** The file's two header chunks are its header block. */
  lemma UploadHeaderOctets(u: Upload)
    ensures UploadChunks("", u)[1] + UploadChunks("", u)[2]
         == Utf8.Encode(HeaderLines(UploadPart(u).headers) + CRLF)
  {
    var h1 := "Content-Disposition: form-data; name=\"file\"; filename=\"" + u.fileName + "\"";
    var h2 := "Content-Type: " + u.mediaType;
    assert UploadPart(u).headers == [h1, h2];
    assert "Content-Disposition: form-data; name=\"file\"; filename=\"" + u.fileName + "\"\r\n" == h1 + CRLF;
    assert "Content-Type: " + u.mediaType + "\r\n\r\n" == h2 + CRLF + CRLF;
    HeaderLinesPair(h1, h2);
    Utf8.EncodeAppend(h1 + CRLF, h2 + CRLF + CRLF);
  }

  lemma HeaderLinesPair(h1: string, h2: string)
    ensures HeaderLines([h1, h2]) + CRLF == (h1 + CRLF) + (h2 + CRLF + CRLF)
  {
    assert [h1, h2][1..] == [h2];
    assert [h2][1..] == [];
    assert HeaderLines([h2]) == h2 + CRLF;
  }

  lemma UploadChunksFrame(boundary: string, u: Upload)
    ensures Concat(UploadChunks(boundary, u))
         == DashBoundary(boundary) + Utf8.Encode(CRLF) + PartOctets(UploadPart(u)) + Utf8.Encode(CRLF)
  {
    var cs := UploadChunks(boundary, u);
    Concat5(cs[0], cs[1], cs[2], cs[3], cs[4]);
    DashLine(boundary);
    UploadHeaderOctets(u);
    assert cs[1] == UploadChunks("", u)[1] && cs[2] == UploadChunks("", u)[2];
  }

  lemma {:induction false} FramedAppend(boundary: string, parts: seq<BodyPart>, p: BodyPart)
    ensures Framed(boundary, parts + [p])
         == Framed(boundary, parts) + DashBoundary(boundary) + Utf8.Encode(CRLF) + PartOctets(p) + Utf8.Encode(CRLF)
  {
    if |parts| == 0 {
      assert parts + [p] == [p];
    } else {
      assert (parts + [p])[1..] == parts[1..] + [p];
      FramedAppend(boundary, parts[1..], p);
    }
  }

  /** Moving each part's trailing CRLF onto the next delimiter turns the
      handler's framing into the grammar's. */
  lemma {:induction false} FramedIsEncapsulated(boundary: string, parts: seq<BodyPart>)
    requires |parts| >= 1
    ensures Framed(boundary, parts)
         == DashBoundary(boundary) + Utf8.Encode(CRLF) + PartOctets(parts[0])
            + Encapsulations(boundary, parts[1..]) + Utf8.Encode(CRLF)
  {
    var d, c := DashBoundary(boundary), Utf8.Encode(CRLF);
    var p0 := PartOctets(parts[0]);
    if |parts| == 1 {
      assert Framed(boundary, parts) == d + c + p0 + c + Framed(boundary, parts[1..]);
      assert Encapsulations(boundary, parts[1..]) == [];
    } else {
      var p1, rest := PartOctets(parts[1]), Encapsulations(boundary, parts[2..]);
      assert parts[1..][1..] == parts[2..];
      assert Framed(boundary, parts[1..]) == d + c + p1 + rest + c by {
        FramedIsEncapsulated(boundary, parts[1..]);
      }
      assert Framed(boundary, parts) == d + c + p0 + c + Framed(boundary, parts[1..]);
      assert Encapsulations(boundary, parts[1..]) == (c + d) + c + p1 + rest;
      MoveCrlf(d, c, p0, p1, rest);
    }
  }

  /** Solver aid: the regrouping behind FramedIsEncapsulated, stated on
      opaque octet strings so the concatenations stay small. */
  lemma MoveCrlf(d: seq<byte>, c: seq<byte>, p0: seq<byte>, p1: seq<byte>, rest: seq<byte>)
    ensures d + c + p0 + c + (d + c + p1 + rest + c) == d + c + p0 + ((c + d) + c + p1 + rest) + c
  {
  }

  lemma BodySplit(boundary: string, fields: seq<Field>, u: Upload)
    ensures Body(boundary, fields, u)
         == Concat(FieldsChunks(boundary, fields)) + Concat(UploadChunks(boundary, u)) + CloseChunk(boundary)
  {
    var fc, uc, close := FieldsChunks(boundary, fields), UploadChunks(boundary, u), CloseChunk(boundary);
    ConcatAppend(fc + uc, [close]);
    ConcatAppend(fc, uc);
    assert Concat([close]) == close;
  }

  lemma CloseOctets(boundary: string)
    ensures CloseChunk(boundary) == DashBoundary(boundary) + Utf8.Encode("--") + Utf8.Encode(CRLF)
  {
    assert "--" + boundary + "--\r\n" == ("--" + boundary) + "--" + CRLF;
    Utf8.EncodeAppend3("--" + boundary, "--", CRLF);
  }

  lemma FramedForm(boundary: string, fields: seq<Field>, u: Upload)
    ensures Concat(FieldsChunks(boundary, fields)) + Concat(UploadChunks(boundary, u))
         == Framed(boundary, FormParts(fields, u))
  {
    var fieldParts := FormParts(fields, Upload("", "", []))[..|fields|];
    assert FormParts(fields, u) == fieldParts + [UploadPart(u)];
    FieldsChunksFrame(boundary, fields);
    UploadChunksFrame(boundary, u);
    FramedAppend(boundary, fieldParts, UploadPart(u));
  }

  /** The handler's push-order body is exactly the RFC 2046 multipart body of
      the form's parts. */
  lemma BodyIsMultipart(boundary: string, fields: seq<Field>, u: Upload)
    ensures Body(boundary, fields, u) == MultipartBody(boundary, FormParts(fields, u))
  {
    var parts := FormParts(fields, u);
    var d, c, dd := DashBoundary(boundary), Utf8.Encode(CRLF), Utf8.Encode("--");
    var p0, enc := PartOctets(parts[0]), Encapsulations(boundary, parts[1..]);
    assert Body(boundary, fields, u) == (d + c + p0 + enc + c) + (d + dd + c) by {
      BodySplit(boundary, fields, u);
      CloseOctets(boundary);
      FramedForm(boundary, fields, u);
      FramedIsEncapsulated(boundary, parts);
    }
    assert MultipartBody(boundary, parts) == d + c + p0 + enc + (c + d) + dd + c;
    Regroup(d, c, p0, enc, dd);
  }

  /** Solver aid: the associativity step closing BodyIsMultipart. */
  lemma Regroup(d: seq<byte>, c: seq<byte>, p0: seq<byte>, enc: seq<byte>, dd: seq<byte>)
    ensures (d + c + p0 + enc + c) + (d + dd + c) == d + c + p0 + enc + (c + d) + dd + c
  {
  }

  /** The body opens with the first dash-boundary line, closes with exactly
      the close delimiter line, and carries the file octets unchanged and in
      one piece just before the final CRLF and close delimiter. */
  lemma BodyFraming(boundary: string, fields: seq<Field>, u: Upload)
    ensures var body := Body(boundary, fields, u);
            var tail := CloseTail(boundary);
            && StartsWith(body, Utf8.Encode("--" + boundary + "\r\n"))
            && EndsWith(body, Utf8.Encode("--" + boundary + "--\r\n"))
            && |body| >= |u.content| + |tail|
            && body[|body| - |tail| - |u.content| .. |body| - |tail|] == u.content
            && body[|body| - |tail|..] == tail
  {
    var body := Body(boundary, fields, u);
    var fc, uc, close := FieldsChunks(boundary, fields), UploadChunks(boundary, u), CloseChunk(boundary);
    var crlf := Utf8.Encode("\r\n");
    var tail := CloseTail(boundary);
    var head := Concat(fc) + uc[0] + uc[1] + uc[2];
    TailOctets(boundary);
    assert body == head + u.content + crlf + close by {
      BodySplit(boundary, fields, u);
      assert uc == [uc[0], uc[1], uc[2], uc[3], uc[4]];
      Concat5(uc[0], uc[1], uc[2], uc[3], uc[4]);
      assert uc[3] == u.content && uc[4] == crlf;
      Regroup6(Concat(fc), uc[0], uc[1], uc[2], u.content, crlf, close);
    }
    FirstChunk(boundary, fields, u);
    Layout(body, tail, head, uc[0], u.content, crlf, close);
  }

  /** Solver aid: the associativity step that isolates the file octets in BodyFraming. */
  lemma Regroup6(f: seq<byte>, a: seq<byte>, b: seq<byte>, c: seq<byte>, d: seq<byte>, e: seq<byte>, g: seq<byte>)
    ensures f + (a + b + c + d + e) + g == (f + a + b + c) + d + e + g
  {
  }

  lemma TailOctets(boundary: string)
    ensures Utf8.Encode("\r\n--" + boundary + "--\r\n") == Utf8.Encode("\r\n") + CloseChunk(boundary)
  {
    assert "\r\n--" + boundary + "--\r\n" == "\r\n" + ("--" + boundary + "--\r\n");
    Utf8.EncodeAppend("\r\n", "--" + boundary + "--\r\n");
  }

  lemma FirstChunk(boundary: string, fields: seq<Field>, u: Upload)
    ensures var fc, uc := FieldsChunks(boundary, fields), UploadChunks(boundary, u);
            StartsWith(Concat(fc) + uc[0] + uc[1] + uc[2], uc[0])
  {
    var fc, uc := FieldsChunks(boundary, fields), UploadChunks(boundary, u);
    if |fields| == 0 {
      assert fc == [];
    } else {
      assert fc[0] == uc[0];
      assert Concat(fc) == fc[0] + Concat(fc[1..]);
    }
  }

  /** Solver aid: the index arithmetic that locates the file octets and the
      close delimiter in BodyFraming. */
  lemma Layout(body: seq<byte>, tail: seq<byte>, head: seq<byte>, first: seq<byte>,
               content: seq<byte>, crlf: seq<byte>, close: seq<byte>)
    requires StartsWith(head, first)
    requires body == head + content + crlf + close
    requires tail == crlf + close
    ensures && StartsWith(body, first)
            && EndsWith(body, close)
            && |body| >= |content| + |tail|
            && body[|body| - |tail| - |content| .. |body| - |tail|] == content
            && body[|body| - |tail|..] == tail
  {
    assert body == head + content + (crlf + close);
  }
}

=== FILE: multipartreader.dfy ===
/**
 A reader for `multipart` bodies, written from section 5.1.1 of RFC 2046
 independently of the writer in `Multipart`.

 The reader puts a CRLF in front of the body (the RFC attaches the CRLF
 before each dash-boundary to the delimiter), cuts the result at every
 occurrence of the delimiter `CRLF "--" boundary`, and skips the preamble
 before the first cut. Each following piece must open either with the CRLF
 that ends a delimiter line, and then holds one body part, or with `--`,
 which makes it the close delimiter; what follows that is epilogue.
 Transport padding before the CRLF is not accepted. A body part is read as
 header lines up to the first empty line, and the content after it.

 `ReadsBack` proves that the reader recovers every part the writer framed,
 with its header lines and its content, whenever no part contains the
 delimiter and no header line contains a carriage return.
 */
module MultipartReader {
  import opened Common
  import Utf8
  import Multipart

  const CrLf: seq<byte> := [13, 10]
  const Hyphens: seq<byte> := [45, 45]

  /** `CRLF "--" boundary`. */
  function Delimiter(boundary: string): (r: seq<byte>)
    ensures |r| >= 4 && r[0] == 13
  {
    CrLf + Hyphens + Utf8.Encode(boundary)
  }

  // ------------------------------------------------------- searching octets

  /** `d` occurs in `s` at offset `i`. */
  predicate At(s: seq<byte>, d: seq<byte>, i: int)
  {
    0 <= i && i + |d| <= |s| && s[i..i + |d|] == d
  }

  /** `d` occurs nowhere in `s`. */
  predicate Free(s: seq<byte>, d: seq<byte>)
  {
    forall i :: 0 <= i <= |s| ==> !At(s, d, i)
  }

  /** The first octet of `d` occurs nowhere else in it, so no occurrence of
      `d` can start inside another one. */
  predicate Unbordered(d: seq<byte>)
  {
    |d| > 0 && forall k :: 0 < k < |d| ==> d[k] != d[0]
  }

  /** The offset of the first occurrence of `d` in `s`. */
  function Find(s: seq<byte>, d: seq<byte>): (r: Option<nat>)
    requires |d| > 0
    ensures r.Some? ==> At(s, d, r.value) && forall j :: 0 <= j < r.value ==> !At(s, d, j)
    ensures r.None? ==> Free(s, d)
    decreases |s|
  {
    if |s| < |d| then None
    else if s[..|d|] == d then Some(0)
    else
      ShiftAll(s, d);
      assert !At(s, d, 0) by {
        assert s[0..|d|] == s[..|d|];
      }
      match Find(s[1..], d)
      case None => None
      case Some(k) => Some(k + 1)
  }

  lemma ShiftAll(s: seq<byte>, d: seq<byte>)
    requires |s| > 0
    ensures forall j :: 1 <= j ==> (At(s, d, j) <==> At(s[1..], d, j - 1))
  {
    forall j | 1 <= j ensures At(s, d, j) <==> At(s[1..], d, j - 1) {
      if j + |d| <= |s| {
        assert s[1..][j - 1..j - 1 + |d|] == s[j..j + |d|];
      }
    }
  }

  /** `s` cut at every occurrence of `d`, scanning from the left. */
  function Split(s: seq<byte>, d: seq<byte>): (r: seq<seq<byte>>)
    requires |d| > 0
    ensures |r| >= 1
    decreases |s|
  {
    match Find(s, d)
    case None => [s]
    case Some(i) => [s[..i]] + Split(s[i + |d|..], d)
  }

  /** The pieces joined again with the separator between them. */
  function Join(pieces: seq<seq<byte>>, d: seq<byte>): seq<byte>
    requires |pieces| >= 1
  {
    if |pieces| == 1 then pieces[0] else pieces[0] + d + Join(pieces[1..], d)
  }

  /** Cutting loses nothing: joining the pieces restores the octets. */
  lemma {:induction false} JoinSplit(s: seq<byte>, d: seq<byte>)
    requires |d| > 0
    ensures Join(Split(s, d), d) == s
    decreases |s|
  {
    match Find(s, d)
    case None =>
    case Some(i) =>
      var rest := s[i + |d|..];
      var pieces := Split(s, d);
      assert pieces == [s[..i]] + Split(rest, d);
      assert pieces[1..] == Split(rest, d);
      JoinSplit(rest, d);
      assert Join(pieces, d) == s[..i] + d + rest;
      assert s == s[..i] + s[i..i + |d|] + rest;
  }

  /** An octet string that does not start `d` cannot hold it. */
  lemma FreeOfFirst(a: seq<byte>, d: seq<byte>)
    requires |d| > 0 && forall i :: 0 <= i < |a| ==> a[i] != d[0]
    ensures Free(a, d)
  {
    forall i | 0 <= i <= |a| ensures !At(a, d, i) {
      if i + |d| <= |a| {
        assert a[i..i + |d|][0] == a[i];
      }
    }
  }

  /** A piece free of an unbordered delimiter ends where the next delimiter
      starts. */
  lemma FindAfter(a: seq<byte>, d: seq<byte>, b: seq<byte>)
    requires Unbordered(d) && Free(a, d)
    ensures Find(a + d + b, d) == Some(|a|)
  {
    var s := a + d + b;
    assert At(s, d, |a|) by {
      assert s[|a|..|a| + |d|] == d;
    }
    forall j | 0 <= j < |a| ensures !At(s, d, j) {
      if j + |d| <= |a| {
        assert a[j..j + |d|] == s[j..j + |d|];
        assert !At(a, d, j);
      } else if j + |d| <= |s| {
        var k := |a| - j;
        assert s[j..j + |d|][k] == s[|a|] == d[0];
        assert s[j..j + |d|][k] != d[k];
      }
    }
  }

  lemma SplitAfter(a: seq<byte>, d: seq<byte>, b: seq<byte>)
    requires Unbordered(d) && Free(a, d)
    ensures Split(a + d + b, d) == [a] + Split(b, d)
  {
    FindAfter(a, d, b);
    var s := a + d + b;
    assert s[..|a|] == a;
    assert s[|a| + |d|..] == b;
  }

  /** A delimiter at the very start cuts off an empty piece. */
  lemma SplitAtStart(d: seq<byte>, b: seq<byte>)
    requires Unbordered(d)
    ensures Split(d + b, d) == [[]] + Split(b, d)
  {
    SplitAfter([], d, b);
    assert [] + d + b == d + b;
  }

  // ------------------------------------------------------- the reader

  /** What the reader recovers of one body part: its header lines, as octets
      without their CRLF, and its content. */
  datatype ReadPart = ReadPart(headers: seq<seq<byte>>, content: seq<byte>)

  /** Header lines up to the first empty line, then the content; `None` when
      no empty line ends the header block. */
  function ReadHeaders(s: seq<byte>): (r: Option<ReadPart>)
    decreases |s|
  {
    match Find(s, CrLf)
    case None => None
    case Some(i) =>
      if i == 0 then Some(ReadPart([], s[2..]))
      else
        (match ReadHeaders(s[i + 2..])
         case None => None
         case Some(p) => Some(ReadPart([s[..i]] + p.headers, p.content)))
  }

  /** The body parts of the pieces after the preamble, up to the close
      delimiter; `None` when a piece opens with neither CRLF nor `--`, or
      when the close delimiter is missing. */
  function Encapsulated(pieces: seq<seq<byte>>): Option<seq<seq<byte>>>
  {
    if |pieces| == 0 then None
    else if Hyphens <= pieces[0] then Some([])
    else if CrLf <= pieces[0] then
      (match Encapsulated(pieces[1..])
       case None => None
       case Some(rest) => Some([pieces[0][2..]] + rest))
    else None
  }

  function ReadParts(octets: seq<seq<byte>>): Option<seq<ReadPart>>
  {
    if |octets| == 0 then Some([])
    else
      match ReadHeaders(octets[0])
      case None => None
      case Some(p) =>
        (match ReadParts(octets[1..])
         case None => None
         case Some(ps) => Some([p] + ps))
  }

  /** The parts of a body framed with `boundary`, or `None` when it is not
      such a body. */
  function Read(boundary: string, body: seq<byte>): Option<seq<ReadPart>>
  {
    match Encapsulated(Split(CrLf + body, Delimiter(boundary))[1..])
    case None => None
    case Some(octets) => ReadParts(octets)
  }

  // ------------------------------------------------------- reading back

  /** A part as the reader should see it: each header line encoded, and the
      content unchanged. */
  function Expected(p: Multipart.BodyPart): (r: ReadPart)
    ensures r.content == p.content && |r.headers| == |p.headers|
    ensures forall j :: 0 <= j < |p.headers| ==> r.headers[j] == Utf8.Encode(p.headers[j])
  {
    ReadPart(EncodeLines(p.headers), p.content)
  }

  function EncodeLines(lines: seq<string>): (r: seq<seq<byte>>)
    ensures |r| == |lines| && forall j :: 0 <= j < |lines| ==> r[j] == Utf8.Encode(lines[j])
  {
    if |lines| == 0 then [] else [Utf8.Encode(lines[0])] + EncodeLines(lines[1..])
  }

  function ExpectedAll(parts: seq<Multipart.BodyPart>): (r: seq<ReadPart>)
    ensures |r| == |parts| && forall i :: 0 <= i < |parts| ==> r[i] == Expected(parts[i])
  {
    if |parts| == 0 then [] else [Expected(parts[0])] + ExpectedAll(parts[1..])
  }

  /** Each part's octets as the writer puts them between delimiters. */
  function Octets(parts: seq<Multipart.BodyPart>): (r: seq<seq<byte>>)
    ensures |r| == |parts| && forall i :: 0 <= i < |parts| ==> r[i] == Multipart.PartOctets(parts[i])
  {
    if |parts| == 0 then [] else [Multipart.PartOctets(parts[0])] + Octets(parts[1..])
  }

  /** A header line the reader can find the end of. */
  predicate PlainLine(h: string)
  {
    h != "" && forall i :: 0 <= i < |h| ==> h[i] != '\r'
  }

  /** A part the reader can tell apart from its framing: plain header lines,
      and no delimiter anywhere in the part, counting the CRLF that opens it. */
  predicate Separable(boundary: string, p: Multipart.BodyPart)
  {
    && (forall i :: 0 <= i < |p.headers| ==> PlainLine(p.headers[i]))
    && Free(CrLf + Multipart.PartOctets(p), Delimiter(boundary))
  }

  /** The reader recovers the writer's parts, in order, with their header
      lines and their content, when the boundary holds no carriage return and
      every part is separable. */
  lemma ReadsBack(boundary: string, parts: seq<Multipart.BodyPart>)
    requires |parts| >= 1
    requires forall i :: 0 <= i < |boundary| ==> boundary[i] != '\r'
    requires forall i :: 0 <= i < |parts| ==> Separable(boundary, parts[i])
    ensures Read(boundary, Multipart.MultipartBody(boundary, parts)) == Some(ExpectedAll(parts))
  {
    var os := Octets(parts);
    PiecesOfBody(boundary, parts);
    EncapsulatedStream(os);
    ReadPartsBack(parts);
  }

  /** After the (empty) preamble, the pieces of the writer's body are its
      parts, each behind its CRLF, and then the close piece. */
  lemma PiecesOfBody(boundary: string, parts: seq<Multipart.BodyPart>)
    requires |parts| >= 1
    requires forall i :: 0 <= i < |boundary| ==> boundary[i] != '\r'
    requires forall i :: 0 <= i < |parts| ==> Separable(boundary, parts[i])
    ensures Split(CrLf + Multipart.MultipartBody(boundary, parts), Delimiter(boundary))[1..]
         == Opened(Octets(parts)) + [Hyphens + CrLf]
  {
    var d, os := Delimiter(boundary), Octets(parts);
    var stream := Stream(d, os);
    DelimiterUnbordered(boundary);
    assert CrLf + Multipart.MultipartBody(boundary, parts) == d + stream by {
      BodyAsStream(boundary, parts);
    }
    SplitAtStart(d, stream);
    forall i | 0 <= i < |os| ensures Free(CrLf + os[i], d) {
      assert Separable(boundary, parts[i]);
    }
    SplitStream(d, os);
  }

  lemma DelimiterUnbordered(boundary: string)
    requires forall i :: 0 <= i < |boundary| ==> boundary[i] != '\r'
    ensures Unbordered(Delimiter(boundary))
  {
    Utf8.EncodeAvoidsAscii(boundary, '\r');
    var e := Utf8.Encode(boundary);
    var d := Delimiter(boundary);
    forall k | 0 < k < |d| ensures d[k] != d[0] {
      if k >= 4 {
        assert d[k] == e[k - 4];
      }
    }
  }

  /** What follows the first delimiter: for each part the CRLF that ends its
      delimiter line, the part and the next delimiter; then `--` CRLF. */
  function Stream(d: seq<byte>, octets: seq<seq<byte>>): seq<byte>
  {
    if |octets| == 0 then Hyphens + CrLf
    else (CrLf + octets[0]) + d + Stream(d, octets[1..])
  }

  /** The pieces between delimiters: each part behind its CRLF. */
  function Opened(octets: seq<seq<byte>>): (r: seq<seq<byte>>)
    ensures |r| == |octets| && forall i :: 0 <= i < |octets| ==> r[i] == CrLf + octets[i]
  {
    if |octets| == 0 then [] else [CrLf + octets[0]] + Opened(octets[1..])
  }

  lemma EncodedPieces(boundary: string)
    ensures Utf8.Encode(Multipart.CRLF) == CrLf
    ensures Utf8.Encode("--") == Hyphens
    ensures Multipart.DashBoundary(boundary) == Hyphens + Utf8.Encode(boundary)
    ensures Multipart.Delimiter(boundary) == Delimiter(boundary)
  {
    Utf8.EncodeAppend("--", boundary);
  }

  lemma {:induction false} EncapsulationsAsStream(boundary: string, parts: seq<Multipart.BodyPart>)
    ensures Multipart.Encapsulations(boundary, parts) + Delimiter(boundary) + Hyphens + CrLf
         == Delimiter(boundary) + Stream(Delimiter(boundary), Octets(parts))
  {
    var d := Delimiter(boundary);
    if |parts| > 0 {
      var p, e := Multipart.PartOctets(parts[0]), Multipart.Encapsulations(boundary, parts[1..]);
      var t := Stream(d, Octets(parts[1..]));
      EncapsulationsAsStream(boundary, parts[1..]);
      assert Multipart.Encapsulations(boundary, parts) == d + CrLf + p + e by {
        EncodedPieces(boundary);
      }
      StreamStep(d, parts);
      Rejoin(d, CrLf, p, e, Hyphens + CrLf, t);
    }
  }

  lemma StreamStep(d: seq<byte>, parts: seq<Multipart.BodyPart>)
    requires |parts| >= 1
    ensures Stream(d, Octets(parts)) == (CrLf + Multipart.PartOctets(parts[0])) + d + Stream(d, Octets(parts[1..]))
  {
    assert Octets(parts)[1..] == Octets(parts[1..]);
  }

  /** Solver aid: associativity over opaque octet strings. */
  lemma Rejoin(d: seq<byte>, c: seq<byte>, p: seq<byte>, e: seq<byte>, h: seq<byte>, t: seq<byte>)
    requires e + d + h == d + t
    ensures d + c + p + e + d + h == d + ((c + p) + d + t)
  {
    calc {
      d + c + p + e + d + h;
      d + c + p + (e + d + h);
      d + c + p + (d + t);
    }
  }

  /** With a CRLF in front, the writer's body is a delimiter and the stream. */
  lemma BodyAsStream(boundary: string, parts: seq<Multipart.BodyPart>)
    requires |parts| >= 1
    ensures CrLf + Multipart.MultipartBody(boundary, parts)
         == Delimiter(boundary) + Stream(Delimiter(boundary), Octets(parts))
  {
    var d, b := Delimiter(boundary), Utf8.Encode(boundary);
    var p, e := Multipart.PartOctets(parts[0]), Multipart.Encapsulations(boundary, parts[1..]);
    var t := Stream(d, Octets(parts[1..]));
    BodyShape(boundary, parts);
    EncapsulationsAsStream(boundary, parts[1..]);
    StreamStep(d, parts);
    Assemble(CrLf, Hyphens, b, p, e, d, t);
  }

  /** The writer's body with its literal pieces spelled as octets. */
  lemma BodyShape(boundary: string, parts: seq<Multipart.BodyPart>)
    requires |parts| >= 1
    ensures Multipart.MultipartBody(boundary, parts)
         == (Hyphens + Utf8.Encode(boundary)) + CrLf + Multipart.PartOctets(parts[0])
            + Multipart.Encapsulations(boundary, parts[1..]) + Delimiter(boundary) + Hyphens + CrLf
  {
    EncodedPieces(boundary);
  }

  /** Solver aid: the regrouping behind BodyAsStream, on opaque octet strings. */
  lemma Assemble(c: seq<byte>, h: seq<byte>, b: seq<byte>, p: seq<byte>, e: seq<byte>, d: seq<byte>, t: seq<byte>)
    requires d == c + h + b
    requires e + d + h + c == d + t
    ensures c + ((h + b) + c + p + e + d + h + c) == d + ((c + p) + d + t)
  {
    calc {
      c + ((h + b) + c + p + e + d + h + c);
      (c + h + b) + c + p + (e + d + h + c);
      d + c + p + (d + t);
    }
  }

  /** The stream cuts into one piece per part and the close piece. */
  lemma {:induction false} SplitStream(d: seq<byte>, octets: seq<seq<byte>>)
    requires Unbordered(d) && |d| >= 4 && d[0] == 13
    requires forall i :: 0 <= i < |octets| ==> Free(CrLf + octets[i], d)
    ensures Split(Stream(d, octets), d) == Opened(octets) + [Hyphens + CrLf]
  {
    if |octets| == 0 {
      assert Free(Hyphens + CrLf, d) by {
        forall i | 0 <= i <= 4 ensures !At(Hyphens + CrLf, d, i) {
          if i == 0 && |d| == 4 {
            assert (Hyphens + CrLf)[0..4][0] != d[0];
          }
        }
      }
    } else {
      assert Free(CrLf + octets[0], d);
      SplitAfter(CrLf + octets[0], d, Stream(d, octets[1..]));
      SplitStream(d, octets[1..]);
    }
  }

  lemma {:induction false} EncapsulatedStream(octets: seq<seq<byte>>)
    ensures Encapsulated(Opened(octets) + [Hyphens + CrLf]) == Some(octets)
  {
    var pieces := Opened(octets) + [Hyphens + CrLf];
    if |octets| == 0 {
      assert pieces == [Hyphens + CrLf];
    } else {
      assert pieces[0] == CrLf + octets[0];
      assert pieces[0][0] == 13;
      assert pieces[0][2..] == octets[0];
      assert pieces[1..] == Opened(octets[1..]) + [Hyphens + CrLf];
      EncapsulatedStream(octets[1..]);
      assert [octets[0]] + octets[1..] == octets;
    }
  }

  /** One part's octets read back into its header lines and content. */
  lemma {:induction false} ReadHeadersBack(headers: seq<string>, content: seq<byte>)
    requires forall i :: 0 <= i < |headers| ==> PlainLine(headers[i])
    ensures ReadHeaders(Utf8.Encode(Multipart.HeaderLines(headers) + Multipart.CRLF) + content)
         == Some(ReadPart(EncodeLines(headers), content))
  {
    var s := Utf8.Encode(Multipart.HeaderLines(headers) + Multipart.CRLF) + content;
    if |headers| == 0 {
      assert s == [] + CrLf + content by {
        assert Multipart.HeaderLines(headers) + Multipart.CRLF == Multipart.CRLF;
        EncodedPieces("");
      }
      FindAfter([], CrLf, content);
      assert s[2..] == content;
    } else {
      var h, more := headers[0], Multipart.HeaderLines(headers[1..]) + Multipart.CRLF;
      var e, rest := Utf8.Encode(h), Utf8.Encode(more);
      assert s == e + CrLf + (rest + content) by {
        assert Multipart.HeaderLines(headers) + Multipart.CRLF == h + Multipart.CRLF + more;
        Utf8.EncodeAppend3(h, Multipart.CRLF, more);
        EncodedPieces("");
      }
      assert Free(e, CrLf) by {
        assert PlainLine(h);
        Utf8.EncodeAvoidsAscii(h, '\r');
        FreeOfFirst(e, CrLf);
      }
      FindAfter(e, CrLf, rest + content);
      assert |e| > 0;
      assert s[..|e|] == e;
      assert s[|e| + 2..] == rest + content;
      ReadHeadersBack(headers[1..], content);
    }
  }

  lemma {:induction false} ReadPartsBack(parts: seq<Multipart.BodyPart>)
    requires forall i :: 0 <= i < |parts| ==> forall j :: 0 <= j < |parts[i].headers| ==> PlainLine(parts[i].headers[j])
    ensures ReadParts(Octets(parts)) == Some(ExpectedAll(parts))
  {
    if |parts| > 0 {
      ReadHeadersBack(parts[0].headers, parts[0].content);
      assert Octets(parts)[1..] == Octets(parts[1..]);
      ReadPartsBack(parts[1..]);
    }
  }

  /** A reader of the form body the route pushes recovers every text field's
      value and the file's octets, in order. */
  lemma FormReadsBack(boundary: string, fields: seq<Multipart.Field>, u: Multipart.Upload)
    requires forall i :: 0 <= i < |boundary| ==> boundary[i] != '\r'
    requires forall p :: p in Multipart.FormParts(fields, u) ==> Separable(boundary, p)
    ensures var read := Read(boundary, Multipart.Body(boundary, fields, u));
            && read.Some? && |read.value| == |fields| + 1
            && (forall i :: 0 <= i < |fields| ==> read.value[i].content == Utf8.Encode(fields[i].value))
            && read.value[|fields|].content == u.content
  {
    var parts := Multipart.FormParts(fields, u);
    Multipart.BodyIsMultipart(boundary, fields, u);
    forall i | 0 <= i < |parts| ensures Separable(boundary, parts[i]) {
      assert parts[i] in parts;
    }
    ReadsBack(boundary, parts);
  }
}

=== FILE: navigation.dfy ===
/**
 The active-link rule shared by the top tabs and the bottom navigation: the
 root link is active only on the root itself, every other link on any
 pathname that starts with its href.
 */
module Navigation {
  import opened Common

  /** `href === "/" ? pathname === "/" : pathname?.startsWith(href)`, with a
      `null` pathname as `None`. */
  predicate IsActive(href: string, pathname: Option<string>)
  {
    if href == "/" then pathname == Some("/")
    else pathname.Some? && StartsWith(pathname.value, href)
  }

  /** The prefix rule is a plain string prefix, not a path-segment match: a
      pathname that merely extends an href's last segment activates it too. */
  lemma PrefixNotSegment()
    ensures IsActive("/committee", Some("/committeeX"))
    ensures IsActive("/home", Some("/homework"))
  {
    assert "/committee" <= "/committeeX";
    assert "/home" <= "/homework";
  }

  /** Two hrefs that are neither of them a prefix of the other are never
      active together. */
  lemma ExclusivePrefixes(a: string, b: string, pathname: Option<string>)
    requires a != "/" && b != "/"
    requires !(a <= b) && !(b <= a)
    ensures !(IsActive(a, pathname) && IsActive(b, pathname))
  {
  }

  /** The root link and a longer href are never active together. */
  lemma RootExcludesLonger(href: string, pathname: Option<string>)
    requires |href| > 1
    ensures !(IsActive("/", pathname) && IsActive(href, pathname))
  {
  }
}

=== FILE: pipeline.dfy ===
/**
 The pieces put together: what the committee page sends is what the route
 handlers read, and what the handlers answer is what the page shows.

 A handler's response reaches the page as its status, its serialised text
 and that text parsed back; the parsed object carries the payload's string
 members (`error`, `message`) and `ok`. The serialised text and the
 runtime's wording of a thrown error are parameters.
 */
module Pipeline {
  import opened Common
  import Js
  import Http
  import Base64
  import DataUrl
  import Multipart
  import Utf8
  import Browser
  import MakeProxy
  import SubmitRoute
  import CommitteePage
  import CommitteeLogin
  import CommitteeGuard
  import BrandPanel

  /** The JSON object a handler's payload parses back to. */
  function PayloadJson(payload: Http.Payload, wording: Http.Thrown -> string): (r: Js.Body)
    ensures r.Object? && "detail" !in r.fields
    ensures payload.Error? ==> Js.Get(r.fields, "error") == Js.Str(payload.error)
    ensures payload.Unexpected? ==> Js.Get(r.fields, "error") == Js.Str(wording(payload.cause))
    ensures payload.Forwarded? || payload.Submitted? ==> Js.Get(r.fields, "ok") == Js.Bool(true)
  {
    match payload
    case Error(e) => Js.Object(map["error" := Js.Str(e)])
    case Unexpected(c) => Js.Object(map["error" := Js.Str(wording(c))])
    case Forwarded(_) => Js.Object(map["ok" := Js.Bool(true)])
    case Submitted(m) => Js.Object(map["ok" := Js.Bool(true), "message" := Js.Str(m)])
  }

  /** What the page's `fetch` resolves to for a handler's response. */
  function Delivered(response: Http.Response, text: string, wording: Http.Thrown -> string): (r: CommitteePage.Reply)
    ensures r.Answered? && r.status == response.status
  {
    CommitteePage.Answered(response.status, text, PayloadJson(response.payload, wording))
  }

  /** The page's server for resolutions: the proxy handler in front of the webhook. */
  function ProxyServer(randomHex: string, makeApiKey: Option<string>, webhook: MakeProxy.Outbound -> MakeProxy.WebhookReply,
                       text: string, wording: Http.Thrown -> string): CommitteePage.Request -> CommitteePage.Reply
  {
    (req: CommitteePage.Request) =>
      Delivered(MakeProxy.Handle(Js.Object(req.body), randomHex, makeApiKey, webhook).response, text, wording)
  }

  /** The page's server for amendments: the intake handler in front of the datastore. */
  function IntakeServer(config: SubmitRoute.Config, insert: SubmitRoute.AmendmentRow -> SubmitRoute.InsertOutcome,
                        text: string, wording: Http.Thrown -> string): CommitteePage.Request -> CommitteePage.Reply
  {
    (req: CommitteePage.Request) =>
      Delivered(SubmitRoute.Handle(Js.Object(req.body), config, insert).response, text, wording)
  }

  /** A resolution the page accepts, with the file read the way a browser reads it. */
  predicate GoodResolution(form: CommitteePage.Form, reader: CommitteePage.File -> CommitteePage.ReadOutcome)
  {
    && form.ResolutionForm?
    && CommitteePage.Filled(form.title) && CommitteePage.Filled(form.sponsor) && form.file.Some?
    && 0 < |form.file.value.content| <= CommitteePage.MaxFileSize
    && (forall i :: 0 <= i < |form.file.value.mediaType| ==> form.file.value.mediaType[i] != ',')
    && reader(form.file.value) == CommitteePage.Loaded(DataUrl.Make(form.file.value.mediaType, form.file.value.content))
  }

  /** The base64 text the page puts in the request decodes, on the proxy, to
      exactly the bytes of the selected file. */
  lemma ResolutionFileSurvives(form: CommitteePage.Form, code: Option<string>,
                               reader: CommitteePage.File -> CommitteePage.ReadOutcome)
    requires GoodResolution(form, reader)
    ensures var req := CommitteePage.BuildRequest(form, code, reader);
            && req.Ok? && req.value.endpoint == CommitteePage.ProxyEndpoint
            && Js.Get(req.value.body, "data_base64") == Js.Str(Base64.Encode(form.file.value.content))
            && Base64.Decode(Base64.Encode(form.file.value.content)) == form.file.value.content
  {
    DataUrl.PayloadOfDataUrl(form.file.value.mediaType, form.file.value.content);
    Base64.RoundTrip(form.file.value.content);
  }

  /** A resolution the page accepts is forwarded to the webhook as a
      multipart body whose parts carry the form's title, sponsor, the stored
      committee code (or `undefined`), the type, and the file's own bytes
      under its own name. */
  lemma ResolutionReachesWebhook(form: CommitteePage.Form, code: Option<string>,
                                 reader: CommitteePage.File -> CommitteePage.ReadOutcome,
                                 randomHex: string, makeApiKey: Option<string>,
                                 webhook: MakeProxy.Outbound -> MakeProxy.WebhookReply)
    requires GoodResolution(form, reader)
    ensures var body := CommitteePage.BuildRequest(form, code, reader).value.body;
            var ex := MakeProxy.Handle(Js.Object(body), randomHex, makeApiKey, webhook);
            var file := form.file.value;
            var parts := Multipart.FormParts(MakeProxy.TextFields(body),
                                             Multipart.Upload(file.name, MakeProxy.MediaTypeFor(file.name), file.content));
            && ex.sent.Some?
            && ex.sent.value.body == Multipart.MultipartBody(MakeProxy.BoundaryOf(randomHex), parts)
            && parts[0].content == Utf8.Encode(form.title.value)
            && parts[1].content == Utf8.Encode(form.sponsor.value)
            && parts[3].content == Utf8.Encode(if CommitteePage.Filled(code) then code.value else "undefined")
            && parts[4].content == Utf8.Encode("resolution")
            && parts[5] == Multipart.UploadPart(Multipart.Upload(file.name, MakeProxy.MediaTypeFor(file.name), file.content))
  {
    ResolutionFileSurvives(form, code, reader);
    var body := CommitteePage.BuildRequest(form, code, reader).value.body;
    var ex := MakeProxy.Handle(Js.Object(body), randomHex, makeApiKey, webhook);
    assert ex.sent.Some?;
    var file := form.file.value;
    var texts := MakeProxy.TextFields(body);
    var upload := Multipart.Upload(file.name, MakeProxy.MediaTypeFor(file.name), file.content);
    MakeProxy.SentOutbound(Js.Object(body), randomHex, makeApiKey, webhook);
    Multipart.BodyIsMultipart(MakeProxy.BoundaryOf(randomHex), texts, upload);
    assert Js.ToString(Js.Get(body, "committeeCode")) == if CommitteePage.Filled(code) then code.value else "undefined";
    assert texts[0].value == form.title.value && texts[1].value == form.sponsor.value;
    assert texts[3].value == Js.ToString(Js.Get(body, "committeeCode")) && texts[4].value == "resolution";
  }

  /** A webhook that refuses the upload with status `s` and text `t` makes the
      page show "Submission failed: t" and keep the form. */
  lemma WebhookRefusalShown(before: CommitteePage.PageState, form: CommitteePage.Form, code: Option<string>,
                            reader: CommitteePage.File -> CommitteePage.ReadOutcome,
                            randomHex: string, makeApiKey: Option<string>,
                            webhook: MakeProxy.Outbound -> MakeProxy.WebhookReply,
                            text: string, wording: Http.Thrown -> string)
    requires GoodResolution(form, reader)
    requires forall out :: webhook(out).Replied? && !Http.IsOk(webhook(out).status)
                           && !Http.IsNullBodyStatus(webhook(out).status)
    ensures var server := ProxyServer(randomHex, makeApiKey, webhook, text, wording);
            var r := CommitteePage.OnSubmit(before, code, form, reader, server);
            && r.sent.Some?
            && !r.formReset
            && var ex := MakeProxy.Handle(Js.Object(r.sent.value.body), randomHex, makeApiKey, webhook);
               && ex.sent.Some?
               && r.state.error == Some("Submission failed: " + webhook(ex.sent.value).text)
  {
    ResolutionFileSurvives(form, code, reader);
  }

  /** A webhook that refuses the upload with a null-body status (304, the
      only non-2xx one a `fetch` response can carry; the 2xx ones 204 and 205
      count as acceptance) makes building
      the passed-through response throw, so the page shows the caught error's
      wording from the 500, not "Submission failed: ", and keeps the form. */
  lemma WebhookNullBodyStatus(before: CommitteePage.PageState, form: CommitteePage.Form, code: Option<string>,
                              reader: CommitteePage.File -> CommitteePage.ReadOutcome,
                              randomHex: string, makeApiKey: Option<string>,
                              webhook: MakeProxy.Outbound -> MakeProxy.WebhookReply,
                              text: string, wording: Http.Thrown -> string)
    requires GoodResolution(form, reader)
    requires forall out :: webhook(out).Replied? && !Http.IsOk(webhook(out).status)
                           && Http.IsNullBodyStatus(webhook(out).status)
    requires forall t :: wording(t) != ""
    ensures var server := ProxyServer(randomHex, makeApiKey, webhook, text, wording);
            var r := CommitteePage.OnSubmit(before, code, form, reader, server);
            && r.sent.Some?
            && !r.formReset
            && var ex := MakeProxy.Handle(Js.Object(r.sent.value.body), randomHex, makeApiKey, webhook);
               && ex.sent.Some?
               && ex.response.status == 500
               && r.state.error == Some(wording(Http.NullBodyStatus(webhook(ex.sent.value).status)))
  {
    ResolutionFileSurvives(form, code, reader);
    var server := ProxyServer(randomHex, makeApiKey, webhook, text, wording);
    var request := CommitteePage.BuildRequest(form, code, reader).value;
    var ex := MakeProxy.Handle(Js.Object(request.body), randomHex, makeApiKey, webhook);
    assert ex.sent.Some?;
    var thrown := Http.NullBodyStatus(webhook(ex.sent.value).status);
    assert ex.response == Http.Response(500, Http.Unexpected(thrown));
    var reply := server(request);
    assert reply == Delivered(ex.response, text, wording);
    assert Js.Get(reply.json.fields, "error") == Js.Str(wording(thrown));
    assert CommitteePage.FailureMessage(reply.text, reply.json) == wording(thrown);
  }

/** A webhook that accepts the upload makes the page report success and
      reset the form. */
  lemma WebhookAcceptanceShown(before: CommitteePage.PageState, form: CommitteePage.Form, code: Option<string>,
                               reader: CommitteePage.File -> CommitteePage.ReadOutcome,
                               randomHex: string, makeApiKey: Option<string>,
                               webhook: MakeProxy.Outbound -> MakeProxy.WebhookReply,
                               text: string, wording: Http.Thrown -> string)
    requires GoodResolution(form, reader)
    requires forall out :: webhook(out).Replied? && Http.IsOk(webhook(out).status)
    ensures var r := CommitteePage.OnSubmit(before, code, form, reader, ProxyServer(randomHex, makeApiKey, webhook, text, wording));
            r.state == CommitteePage.PageState(false, Some(CommitteePage.ResolutionDone), None, None) && r.formReset
  {
    ResolutionFileSurvives(form, code, reader);
  }

  /** An amendment form the page accepts, without fields that would override
      the type or the committee code. */
  predicate GoodAmendment(form: CommitteePage.Form)
  {
    && form.AmendmentForm?
    && "resolutionNumber" in form.entries && form.entries["resolutionNumber"] != ""
    && "content" in form.entries && form.entries["content"] != ""
    && "type" !in form.entries && "committeeCode" !in form.entries
  }

  /** Without a stored committee code the page still sends the amendment,
      with `committeeCode: null`, and the intake refuses it: nothing is
      inserted and the page shows the intake's message. */
  lemma AmendmentWithoutCodeRefused(before: CommitteePage.PageState, form: CommitteePage.Form,
                                    reader: CommitteePage.File -> CommitteePage.ReadOutcome,
                                    config: SubmitRoute.Config,
                                    insert: SubmitRoute.AmendmentRow -> SubmitRoute.InsertOutcome,
                                    text: string, wording: Http.Thrown -> string)
    requires GoodAmendment(form)
    ensures var r := CommitteePage.OnSubmit(before, None, form, reader, IntakeServer(config, insert, text, wording));
            && r.sent.Some?
            && SubmitRoute.Handle(Js.Object(r.sent.value.body), config, insert).inserted.None?
            && r.state.error == Some(SubmitRoute.MissingFieldsMessage)
  {
    var body := CommitteePage.BuildRequest(form, None, reader).value.body;
    assert Js.Get(body, "committeeCode") == Js.Null;
    assert Js.Get(body, "type") == Js.Str("amendment");
  }

  /** With a stored code and a configured datastore, an amendment becomes the
      row (code, resolution number, content) and a successful insert makes
      the page report success. */
  lemma AmendmentStored(before: CommitteePage.PageState, form: CommitteePage.Form, code: string,
                        reader: CommitteePage.File -> CommitteePage.ReadOutcome,
                        config: SubmitRoute.Config,
                        insert: SubmitRoute.AmendmentRow -> SubmitRoute.InsertOutcome,
                        text: string, wording: Http.Thrown -> string)
    requires GoodAmendment(form) && code != ""
    requires SubmitRoute.IsSet(config.supabaseUrl) && SubmitRoute.IsSet(config.supabaseKey)
    requires forall row :: insert(row) == SubmitRoute.Inserted
    ensures var r := CommitteePage.OnSubmit(before, Some(code), form, reader, IntakeServer(config, insert, text, wording));
            && r.sent.Some?
            && SubmitRoute.Handle(Js.Object(r.sent.value.body), config, insert).inserted
               == Some(SubmitRoute.AmendmentRow(Js.Str(code), Js.Str(form.entries["resolutionNumber"]),
                                                Js.Str(form.entries["content"])))
            && r.state.message == Some(CommitteePage.AmendmentDone)
  {
    var body := CommitteePage.BuildRequest(form, Some(code), reader).value.body;
    assert Js.Get(body, "committeeCode") == Js.Str(code);
    assert Js.Get(body, "type") == Js.Str("amendment");
    assert Js.Get(body, "resolutionNumber") == Js.Str(form.entries["resolutionNumber"]);
    assert Js.Get(body, "content") == Js.Str(form.entries["content"]);
  }

  /** The session: after a successful login with the default props, the guard
      lets every page through and a brand panel mounted afterwards (on a full
      page load) offers logout; after logout, the guard sends every page but
      the login page back to it. */
  lemma SessionCycle(before: CommitteeLogin.LoginState, storage: Browser.Storage,
                     lookup: string -> CommitteeLogin.LookupOutcome, pathname: string)
    requires storage.available
    requires CommitteeLogin.Trim(before.code) != []
    requires lookup(CommitteeLogin.Trim(before.code)).Answered?
    requires lookup(CommitteeLogin.Trim(before.code)).data.Some? && !lookup(CommitteeLogin.Trim(before.code)).failed
    ensures var login := CommitteeLogin.HandleSubmit(before, CommitteeLogin.DefaultProps, storage, lookup);
            var signedIn := Browser.Apply(storage, login.effects);
            var panel := BrandPanel.Mount(signedIn);
            var signedOut := Browser.Apply(signedIn, BrandPanel.Logout(panel, signedIn).effects);
            && CommitteeGuard.Guard(pathname, signedIn).effects == []
            && BrandPanel.Render(panel).logoutButton
            && (pathname != CommitteeGuard.LoginPath ==>
                  CommitteeGuard.Guard(pathname, signedOut).effects == [Browser.Replaced(CommitteeGuard.LoginPath)])
  {
    var code := CommitteeLogin.Trim(before.code);
    var login := CommitteeLogin.HandleSubmit(before, CommitteeLogin.DefaultProps, storage, lookup);
    assert login.effects == [Browser.Stored(Browser.CommitteeKey, code), Browser.Pushed(CommitteeLogin.DefaultTarget)];
    CommitteeLogin.ApplyStoreThenNavigate(storage, Browser.CommitteeKey, code, CommitteeLogin.DefaultTarget);
    var signedIn := Browser.Apply(storage, login.effects);
    var panel := BrandPanel.Mount(signedIn);
    var logout := BrandPanel.Logout(panel, signedIn);
  }

  /** The brand panel sits in the root layout and reads storage only when it
      mounts, and login leaves by a client-side `push`, which keeps the layout
      mounted. So the panel mounted before a successful login still shows no
      "Log out" button afterwards, although a panel mounted on the new storage
      would. */
  lemma PanelStaleAfterLogin(before: CommitteeLogin.LoginState, storage: Browser.Storage,
                             lookup: string -> CommitteeLogin.LookupOutcome)
    requires storage.available && Browser.CommitteeKey !in storage.items
    requires CommitteeLogin.Trim(before.code) != []
    requires lookup(CommitteeLogin.Trim(before.code)).Answered?
    requires lookup(CommitteeLogin.Trim(before.code)).data.Some? && !lookup(CommitteeLogin.Trim(before.code)).failed
    ensures var login := CommitteeLogin.HandleSubmit(before, CommitteeLogin.DefaultProps, storage, lookup);
            var signedIn := Browser.Apply(storage, login.effects);
            && |login.effects| > 0 && login.effects[|login.effects| - 1] == Browser.Pushed(CommitteeLogin.DefaultTarget)
            && !BrandPanel.Render(BrandPanel.Mount(storage)).logoutButton
            && BrandPanel.Render(BrandPanel.Mount(signedIn)).logoutButton
  {
    var code := CommitteeLogin.Trim(before.code);
    var login := CommitteeLogin.HandleSubmit(before, CommitteeLogin.DefaultProps, storage, lookup);
    assert login.effects == [Browser.Stored(Browser.CommitteeKey, code), Browser.Pushed(CommitteeLogin.DefaultTarget)];
    CommitteeLogin.ApplyStoreThenNavigate(storage, Browser.CommitteeKey, code, CommitteeLogin.DefaultTarget);
  }
}

=== FILE: submitroute.dfy ===
/**
 `POST /api/submit`: the amendment intake. An ordered chain of checks (the
 type tag, then the three required fields, then the server's datastore
 configuration) decides the response; only when all pass is one row
 inserted into the `amendments` table.

 The datastore is a parameter: `insert` answers the single insert call.
 */
module SubmitRoute {
  import opened Common
  import Js
  import Http

  /** The row written to `amendments`: exactly three columns. */
  datatype AmendmentRow = AmendmentRow(committee_code: Js.Value, resolution_number: Js.Value, content: Js.Value)

  /** What the insert call returned, or that it threw. */
  datatype InsertOutcome = Inserted | InsertFailed(message: string) | InsertThrew

  /** The two environment variables the handler reads. */
  datatype Config = Config(supabaseUrl: Option<string>, supabaseKey: Option<string>)

  /** The handler's answer and the row it tried to insert, if any. */
  datatype Exchange = Exchange(response: Http.Response, inserted: Option<AmendmentRow>)

  const WrongTypeMessage: string := "This endpoint is for amendments only."
  const MissingFieldsMessage: string := "Missing required fields for amendment."
  const ConfigMessage: string := "Server configuration error."
  const SuccessMessage: string := "Amendment submitted successfully."

  predicate IsSet(v: Option<string>)
  {
    v.Some? && v.value != ""
  }

  /** `POST /api/submit`. */
  function Handle(request: Js.Body, config: Config, insert: AmendmentRow -> InsertOutcome): (r: Exchange)
    // A body that is not a JSON object ends in 500, not 400.
    ensures !request.Object? ==> r.response.status == 500 && r.inserted.None?
    // The type tag is checked first: anything but the string "amendment" is refused.
    ensures request.Object? && Js.Get(request.fields, "type") != Js.Str("amendment")
            ==> r == Exchange(Http.Response(400, Http.Error(WrongTypeMessage)), None)
    // Then the three fields: any of them falsy is refused, whatever the configuration.
    ensures request.Object? && Js.Get(request.fields, "type") == Js.Str("amendment")
            && !(Js.Truthy(Js.Get(request.fields, "resolutionNumber"))
                 && Js.Truthy(Js.Get(request.fields, "content"))
                 && Js.Truthy(Js.Get(request.fields, "committeeCode")))
            ==> r == Exchange(Http.Response(400, Http.Error(MissingFieldsMessage)), None)
    // Then the server configuration, only once the fields are valid.
    ensures request.Object? && Js.Get(request.fields, "type") == Js.Str("amendment")
            && Js.Truthy(Js.Get(request.fields, "resolutionNumber"))
            && Js.Truthy(Js.Get(request.fields, "content"))
            && Js.Truthy(Js.Get(request.fields, "committeeCode"))
            && !(IsSet(config.supabaseUrl) && IsSet(config.supabaseKey))
            ==> r == Exchange(Http.Response(500, Http.Error(ConfigMessage)), None)
    // An insert is attempted exactly when every check passes, and the row
    // carries the three request fields under their column names.
    ensures r.inserted.Some? <==>
              request.Object? && Js.Get(request.fields, "type") == Js.Str("amendment")
              && Js.Truthy(Js.Get(request.fields, "resolutionNumber"))
              && Js.Truthy(Js.Get(request.fields, "content"))
              && Js.Truthy(Js.Get(request.fields, "committeeCode"))
              && IsSet(config.supabaseUrl) && IsSet(config.supabaseKey)
    ensures r.inserted.Some? ==>
              r.inserted.value == AmendmentRow(Js.Get(request.fields, "committeeCode"),
                                               Js.Get(request.fields, "resolutionNumber"),
                                               Js.Get(request.fields, "content"))
    // The insert's result decides the rest: success returns no row data.
    ensures r.inserted.Some? ==>
              match insert(r.inserted.value)
              case Inserted => r.response == Http.Response(200, Http.Submitted(SuccessMessage))
              case InsertFailed(m) => r.response == Http.Response(500, Http.Error(m))
              case InsertThrew => r.response == Http.Response(500, Http.Unexpected(Http.ClientFailure))
    // There is no 401 or any other status.
    ensures r.response.status in {200, 400, 500}
  {
    match request
    case NotJson => Exchange(Http.Response(500, Http.Unexpected(Http.BodyNotJson)), None)
    case JsonNull => Exchange(Http.Response(500, Http.Unexpected(Http.FieldOfNull)), None)
    case Object(fields) =>
      var kind, code := Js.Get(fields, "type"), Js.Get(fields, "committeeCode");
      var number, content := Js.Get(fields, "resolutionNumber"), Js.Get(fields, "content");
      if kind != Js.Str("amendment") then
        Exchange(Http.Response(400, Http.Error(WrongTypeMessage)), None)
      else if !Js.Truthy(number) || !Js.Truthy(content) || !Js.Truthy(code) then
        Exchange(Http.Response(400, Http.Error(MissingFieldsMessage)), None)
      else if !IsSet(config.supabaseUrl) || !IsSet(config.supabaseKey) then
        Exchange(Http.Response(500, Http.Error(ConfigMessage)), None)
      else
        var row := AmendmentRow(code, number, content);
        match insert(row)
        case Inserted => Exchange(Http.Response(200, Http.Submitted(SuccessMessage)), Some(row))
        case InsertFailed(m) => Exchange(Http.Response(500, Http.Error(m)), Some(row))
        case InsertThrew => Exchange(Http.Response(500, Http.Unexpected(Http.ClientFailure)), Some(row))
  }

  /** The worked example: a complete amendment is inserted as one row and
      acknowledged with a message, not with the row. */
  lemma CompleteAmendment(config: Config, insert: AmendmentRow -> InsertOutcome)
    requires IsSet(config.supabaseUrl) && IsSet(config.supabaseKey)
    requires insert(AmendmentRow(Js.Str("GA1"), Js.Str("R12"), Js.Str("Strike paragraph 3"))) == Inserted
    ensures var request := Js.Object(map["type" := Js.Str("amendment"), "committeeCode" := Js.Str("GA1"),
                                         "resolutionNumber" := Js.Str("R12"), "content" := Js.Str("Strike paragraph 3")]);
            Handle(request, config, insert)
            == Exchange(Http.Response(200, Http.Submitted(SuccessMessage)),
                        Some(AmendmentRow(Js.Str("GA1"), Js.Str("R12"), Js.Str("Strike paragraph 3"))))
  {
  }

  /** An amendment without a committee code is a plain 400 for missing
      fields: there is no separate "not logged in" answer. */
  lemma AmendmentWithoutCode(config: Config, insert: AmendmentRow -> InsertOutcome)
    ensures var request := Js.Object(map["type" := Js.Str("amendment"),
                                         "resolutionNumber" := Js.Str("R12"), "content" := Js.Str("Strike paragraph 3")]);
            Handle(request, config, insert) == Exchange(Http.Response(400, Http.Error(MissingFieldsMessage)), None)
  {
  }
}

=== FILE: toptabs.dfy ===
/**
 The top tab bar: a fixed list of three tabs, rendered in order, each marked
 active by the shared active-link rule.
 */
module TopTabs {
  import opened Common
  import Navigation

  datatype Tab = Tab(href: string, text: string)

  /** A rendered link: where it goes, its text and its class attribute. */
  datatype Link = Link(href: string, text: string, className: string)

  const Tabs: seq<Tab> := [Tab("/committee", "Committee"), Tab("/", "Submit"), Tab("/executive", "Executive")]

  /** `` `tab ${active ? 'active' : ''}` ``. */
  function ClassName(active: bool): (r: string)
    ensures r == "tab active" <==> active
  {
    "tab " + (if active then "active" else "")
  }

  /** The tab bar for a pathname (`None` for `null`). */
  function Render(pathname: Option<string>): (r: seq<Link>)
    // One link per tab, in the list's order: Committee, Submit, Executive.
    ensures |r| == |Tabs|
    ensures forall i :: 0 <= i < |r| ==> r[i].href == Tabs[i].href && r[i].text == Tabs[i].text
    ensures [r[0].text, r[1].text, r[2].text] == ["Committee", "Submit", "Executive"]
    // A tab shows as active exactly when the active-link rule holds for it.
    ensures forall i :: 0 <= i < |r| ==> (r[i].className == "tab active" <==> Navigation.IsActive(Tabs[i].href, pathname))
  {
    seq(|Tabs|, i requires 0 <= i < |Tabs| => Link(Tabs[i].href, Tabs[i].text, ClassName(Navigation.IsActive(Tabs[i].href, pathname))))
  }

  /** Whatever the pathname, at most one tab is active. */
  lemma AtMostOneActive(pathname: Option<string>, i: int, j: int)
    requires 0 <= i < |Tabs| && 0 <= j < |Tabs|
    requires Render(pathname)[i].className == "tab active" && Render(pathname)[j].className == "tab active"
    ensures i == j
  {
    assert "/committee"[1] != "/executive"[1];
    Navigation.ExclusivePrefixes("/committee", "/executive", pathname);
    Navigation.RootExcludesLonger("/committee", pathname);
    Navigation.RootExcludesLonger("/executive", pathname);
  }

  /** The Submit tab is active only on the root, and without a pathname no
      tab is. */
  lemma ActiveTabs(pathname: Option<string>)
    ensures Render(pathname)[1].className == "tab active" <==> pathname == Some("/")
    ensures pathname.None? ==> forall i :: 0 <= i < |Tabs| ==> Render(pathname)[i].className != "tab active"
    ensures Render(Some("/committee/new"))[0].className == "tab active"
  {
    assert "/committee" <= "/committee/new";
  }
}

=== FILE: utf8.dfy ===
/**
 UTF-8 encoding of strings, which is what `Buffer.from(string)` does to the
 text pieces of the multipart body. A Dafny `char` is a Unicode scalar
 value, so every character has an encoding of one to four bytes.
 */
module Utf8 {
  import opened Common

  /** The UTF-8 bytes of one scalar value (section 3 of RFC 3629). */
  function EncodeChar(c: char): (r: seq<byte>)
    ensures 1 <= |r| <= 4
    ensures |r| == 1 <==> c as int < 0x80
    ensures c as int < 0x80 ==> r[0] as int == c as int
    ensures c as int >= 0x80 ==> 0xC0 <= r[0] as int
    ensures c as int >= 0x80 ==> forall i :: 1 <= i < |r| ==> 0x80 <= r[i] as int < 0xC0
  {
    var n := c as int;
    if n < 0x80 then
      [n as byte]
    else if n < 0x800 then
      [(0xC0 + n / 64) as byte, (0x80 + n % 64) as byte]
    else if n < 0x10000 then
      [(0xE0 + n / 4096) as byte, (0x80 + (n / 64) % 64) as byte, (0x80 + n % 64) as byte]
    else
      [(0xF0 + n / 262144) as byte, (0x80 + (n / 4096) % 64) as byte,
       (0x80 + (n / 64) % 64) as byte, (0x80 + n % 64) as byte]
  }

  /** The UTF-8 bytes of a string, character after character. */
  function Encode(s: string): (r: seq<byte>)
    ensures |r| >= |s|
  {
    if |s| == 0 then [] else EncodeChar(s[0]) + Encode(s[1..])
  }

  /** Encoding distributes over concatenation, so a template string can be
      split into its pieces. */
  lemma {:induction false} EncodeAppend(a: string, b: string)
    ensures Encode(a + b) == Encode(a) + Encode(b)
  {
    if |a| == 0 {
      assert a + b == b;
    } else {
      var ab := a + b;
      assert ab[0] == a[0];
      assert ab[1..] == a[1..] + b;
      EncodeAppend(a[1..], b);
      calc {
        Encode(ab);
        EncodeChar(a[0]) + Encode(a[1..] + b);
        EncodeChar(a[0]) + (Encode(a[1..]) + Encode(b));
      }
    }
  }

  lemma EncodeAppend3(a: string, b: string, c: string)
    ensures Encode(a + b + c) == Encode(a) + Encode(b) + Encode(c)
  {
    EncodeAppend(a + b, c);
    EncodeAppend(a, b);
  }

  /** An ASCII character absent from a string is absent from its encoding:
      every byte of a longer sequence has its high bit set. */
  lemma {:induction false} EncodeAvoidsAscii(s: string, c: char)
    requires c as int < 0x80
    requires forall i :: 0 <= i < |s| ==> s[i] != c
    ensures forall i :: 0 <= i < |Encode(s)| ==> Encode(s)[i] as int != c as int
  {
    if |s| > 0 {
      EncodeAvoidsAscii(s[1..], c);
      var e, rest := EncodeChar(s[0]), Encode(s[1..]);
      forall i | 0 <= i < |e + rest| ensures (e + rest)[i] as int != c as int {
        if i >= |e| {
          assert (e + rest)[i] == rest[i - |e|];
        }
      }
    }
  }
}
